=== FILE: README.md ===
# Markdown question bank to self-grading quiz page

This project models `parse_markdown_to_quiz_html` from `convert_md_to_quiz.py` in Dafny. The function takes a plain-text question bank and produces a quiz page. Each question is written as a header line `<number>. <prompt>`, option lines `- <label>. <text>` and a line `Correct answer: <labels>`. The page holds one group of radio buttons or checkboxes per question, a script that fills an `answers` object with the correct labels, and a `submitQuiz` routine that grades the checked boxes against that object.

The model has four stages:

- **Splitter**: the bank is stripped and cut at every line feed followed by `\d+\.\s`.
- **Header, Options, Answers, Questions**: the three regular expressions run on each block, and blocks without a header are skipped.
- **Render, Script**: each question becomes markup lines and one `answers['q<n>'] = [...]` line.
- **AnswerKeys, Grading**: the script is executed and graded. `submitQuiz` is a pure function of the checked labels per group and the `answers` object.

`Quiz` ties the stages together. `Quiz.ConvertUntitled` is the call without a title, which gets the default title `AWS Practice Exam`. The model also reads the emitted markup and script back, and proves they carry what the parser found. The markup reader takes the input tag that opens a line. The script reader runs the assignment lines. `Bank` is a printer for banks in the authors' layout, and proves that the parser reads such a bank back exactly. `Examples` works concrete inputs through the model.

Text is `seq<char>`. Whitespace means the ASCII members of Python's `str.strip()` set and the regex class `\s`: codes 9–13 and 28–32. `\d` means `0`–`9`.

The model keeps these behaviours of the code:

- A block after the first can be exactly `<digits>.`. This happens when the whitespace that completed its header was the line feed the split consumed.
- The header's number is kept as a digit string, leading zeros included. Its prompt is not trimmed.
- Options are found anywhere in the block, not only at line starts, and `\s` may be a line feed.
- A question without an answer line is graded correct when nothing is selected in it.
- Question numbers are not required to be unique. A repeated number overwrites the earlier entry in `answers` and keeps that entry's position.

## Model

| member | source | states |
|---|---|---|
| Text.Strip | convert_md_to_quiz.py:12 | Python's `str.strip()` on the bank text. It has no contract of its own; it is stated by `Text.StripSpec`, `Text.StripIdempotent` and `Text.StripUnchanged` |
| Text.StripSpec | convert_md_to_quiz.py:12 | `strip()` returns a slice of its input with no whitespace at either end, and every character cut away is whitespace |
| Text.StripIdempotent | convert_md_to_quiz.py:12 | stripping twice is the same as stripping once |
| Text.StripUnchanged | convert_md_to_quiz.py:12 | a text that neither starts nor ends with whitespace is left unchanged |
| Splitter.Split | convert_md_to_quiz.py:12 | the blocks joined with line feeds give the stripped text back; each separator is followed by a header `\d+\.\s`; no block contains such a cut |
| Splitter.SplitUnique | convert_md_to_quiz.py:12 | any decomposition with those three properties is the split, so the split is exactly `re.split(r"\n(?=\d+\.\s)")` |
| Splitter.BlockAfterCut | convert_md_to_quiz.py:12 | every block after the first starts with digits and a full stop; either its own text completes the header, or the block is exactly `<digits>.` and is followed by another block |
| Header.MatchSpan | convert_md_to_quiz.py:17 | the span of `re.match(r"(\d+)\.\s+(.*?)\n", block)`: digit run, whitespace run, prompt end. It has no contract of its own; it is stated by `Header.MatchSpanIsLeftmostGreedy` |
| Header.MatchSpanIsLeftmostGreedy | convert_md_to_quiz.py:17 | `(\d+)\.\s+(.*?)\n` matches exactly when some split of the block fits the pattern; the match has the longest whitespace run and, for that run, the shortest prompt |
| Header.ParseHeader | convert_md_to_quiz.py:17-22 | the two groups of the header match, `q_number` and `question_text`, or nothing when the block has no header. It has no contract of its own; it is stated by `Header.ParseHeaderShape` and `Header.HeaderRoundTrip` |
| Header.ParseHeaderShape | convert_md_to_quiz.py:17-22 | a matched number is a non-empty digit prefix of the block followed by `.`, and the prompt contains no line feed |
| Header.HeaderRoundTrip | convert_md_to_quiz.py:17-22 | a header written as `<number>. <prompt>\n` gives back that number and prompt |
| Options.OptionAt | convert_md_to_quiz.py:24 | `-\s([A-E])\.\s(.+)` matches at a position exactly when the dash, whitespace, label, full stop, whitespace and a non-empty text up to the next line feed are there |
| Options.FindAll | convert_md_to_quiz.py:24 | every reported match is a real match at or after the start position, and matches do not overlap |
| Options.FindAllComplete | convert_md_to_quiz.py:24 | no match is missed: every position where the pattern matches lies inside a reported match |
| Options.FindAllUnique | convert_md_to_quiz.py:24 | any list of real matches from a position on, in order without overlap, that covers every position where the option pattern matches equals `FindAll`: these properties determine what `re.findall` returns |
| Options.OrderOfAppearance | convert_md_to_quiz.py:24 | matches come out in strictly increasing order of position |
| Options.OptionLine | convert_md_to_quiz.py:24 | a line `- <label>. <text>` followed by a line feed or the end of the block is matched as exactly that label and text |
| Answers.LabelList | convert_md_to_quiz.py:25-26 | the labels of the captured group `[A-E](?:,\s?[A-E])*` after splitting at commas and stripping: its contract says the result is non-empty, starts with the list's first label and holds labels only; `Answers.LabelListWritten` states that it returns exactly the written labels |
| Answers.LabelListWritten | convert_md_to_quiz.py:25-26 | a list of labels written with a comma, or a comma and one whitespace character, in each gap reads back as exactly those labels, in order |
| Answers.LabelListFormat | convert_md_to_quiz.py:25-26 | a list written as labels joined by `", "` reads back as the same labels, in order |
| Answers.CorrectAnswers | convert_md_to_quiz.py:25-26 | `correct_answers` of a block: the labels after the first `Correct answer: ` that is followed by a label, or the empty list. It has no contract of its own; it is stated by `Answers.CorrectAnswersSpec` and `Answers.AnswerLine` |
| Answers.CorrectAnswersSpec | convert_md_to_quiz.py:25-26 | the correct list is empty exactly when no `Correct answer: ` is followed by a label; otherwise it is read from the leftmost such marker; it holds labels only |
| Answers.AnswerLine | convert_md_to_quiz.py:25-26 | an answer line after marker-free text yields exactly the labels written on it, whichever of `,` or `,` plus one whitespace character separates each pair |
| Questions.Parse | convert_md_to_quiz.py:12-26 | the parsing loop of `parse_markdown_to_quiz_html`: strip, split, then parse each block in order. It has no contract of its own; its results are stated by `Splitter.Split`, `Questions.ParseBlockSpec`, `Questions.CountIsHeaded` and `Questions.ParseBlocksWellFormed` |
| Questions.ParseBlock | convert_md_to_quiz.py:17-26 | one block: nothing without a header, otherwise the question with the header's number and prompt, every option match and the answer list. It has no contract of its own; it is stated by `Questions.ParseBlockSpec` |
| Questions.ParseBlockSpec | convert_md_to_quiz.py:16-26 | a block is skipped exactly when the header pattern cannot match it; a kept block gives a well-formed question whose options are the block's matches in order and whose answers are the block's list |
| Questions.ParseBlocksAppend | convert_md_to_quiz.py:16-19 | blocks are parsed independently: parsing two runs of blocks gives the concatenation of their questions |
| Questions.SkipMalformed | convert_md_to_quiz.py:17-19 | a block without a header contributes nothing, wherever it sits |
| Questions.CountIsHeaded | convert_md_to_quiz.py:16-19 | there is one question per block that has a header |
| Questions.ParseBlocksWellFormed | convert_md_to_quiz.py:16-26 | every parsed question has a digit number, a one-line prompt, labelled one-line options and a label-only answer list |
| Render.QuestionsHtml | convert_md_to_quiz.py:28-35 | the `questions_html` accumulated from the empty string (line 13): each question's container, input and feedback lines, in order. It has no contract of its own; its content is stated by `Render.QuestionsHtmlInputs` |
| Render.InputType | convert_md_to_quiz.py:31 | the control kind of a question's inputs. It has no contract of its own; it is stated by `Render.ControlKind` |
| Render.ControlKind | convert_md_to_quiz.py:31 | every input of a question is a checkbox exactly when more than one label is correct, and a radio button otherwise, including a question with no correct label |
| Render.Fragment | convert_md_to_quiz.py:28-35 | one question's markup: container line, one input line per option, feedback line and closing line. It has no contract of its own; it is stated by `Render.FragmentInputs` |
| Render.ReadInputLine | convert_md_to_quiz.py:31-33 | an option's input tag carries its control kind, the group `q<number>` and the option's label as its value |
| Render.InputLinesRead | convert_md_to_quiz.py:29-33 | a question's input lines give one input per option in order, all of one kind and one group |
| Render.OtherLinesCarryNoInput | convert_md_to_quiz.py:28-35 | the container, feedback and closing lines open with no input tag, so the line-start reader reads none from them |
| Render.FragmentInputs | convert_md_to_quiz.py:28-35 | a question's markup splits back into its lines, and the inputs in them are its expected inputs |
| Render.QuestionsHtmlInputs | convert_md_to_quiz.py:16-35 | over all questions, the inputs read back from the markup are each question's expected inputs in turn |
| Render.KeyShape | convert_md_to_quiz.py:32 | the key `q<number>` of a digit number contains no quote and no line feed, so it stays inside its attribute |
| Script.ScoreScript | convert_md_to_quiz.py:37 | the `score_script`: the head line `const answers = {}` (line 14) followed by one assignment line per question. It has no contract of its own; its content is stated by `Script.ScriptRoundTrip` |
| Script.PyItems | convert_md_to_quiz.py:37 | the items of Python's printed form of `correct_answers`, `'A', 'C'`. It has no contract of its own; it is stated by `Script.ReadItemsFormat` |
| Script.KeyLine | convert_md_to_quiz.py:37 | one line `answers['q<n>'] = [<items>];`. It has no contract of its own; it is stated by `Script.ReadKeyLineRoundTrip` |
| Script.ReadItemsFormat | convert_md_to_quiz.py:37 | Python's printed form of a non-empty list of one-letter strings reads back as those letters |
| Script.ReadKeyLineRoundTrip | convert_md_to_quiz.py:37 | each emitted `answers['q<n>'] = [...]` line reads back as that key and those labels |
| Script.ScriptRoundTrip | convert_md_to_quiz.py:14-37 | the emitted script reads back as one assignment per parsed question, in order |
| AnswerKeys.Assign | convert_md_to_quiz.py:37 | running one emitted line `answers['<key>'] = [...]`: a new key is appended to the key order, a known key keeps its place and gets the new labels. It has no contract of its own; it is stated by `AnswerKeys.Execute` and `AnswerKeys.ExecuteLastWins` |
| AnswerKeys.Execute | convert_md_to_quiz.py:37 | running the assignments builds an object whose keys are exactly the assigned keys, each listed once in its key order |
| AnswerKeys.ExecuteLastWins | convert_md_to_quiz.py:37 | a key holds the labels of its last assignment |
| AnswerKeys.ValidCount | convert_md_to_quiz.py:67 | `Object.keys(answers).length` equals the number of entries in the object |
| Grading.Grade | convert_md_to_quiz.py:65-89 | `submitQuiz`, as a function of the checked labels per group and the `answers` object. It has no contract of its own; it is stated by `Grading.GradeSpec` and `Grading.FullMarks` |
| Grading.Sort | convert_md_to_quiz.py:73-74 | the default sort of one-letter strings gives an ordered permutation of its input |
| Grading.SortedUnique | convert_md_to_quiz.py:73-75 | two ordered strings with the same characters are equal |
| Grading.CanonicalEqual | convert_md_to_quiz.py:73-75 | the sorted-and-joined forms agree exactly when one selection is a permutation of the other |
| Grading.Judge | convert_md_to_quiz.py:73-85 | a question is correct exactly when the selection is a permutation of its correct labels; the feedback says so, or lists the correct labels joined by `", "` |
| Grading.GradeKeys | convert_md_to_quiz.py:69-86 | the `for (let key in answers)` loop: judge each key in order and count the correct ones. It has no contract of its own beyond its precondition; it is stated by `Grading.GradeKeysSpec` |
| Grading.GradeKeysSpec | convert_md_to_quiz.py:69-86 | walking the keys gives one verdict per key, each that key's judgement, and counts the keys answered correctly |
| Grading.GradeSpec | convert_md_to_quiz.py:65-89 | grading gives one verdict per key; the total is the number of keys; the score is the number of keys whose selection is a permutation of their labels, so it lies between 0 and the total |
| Grading.NoAnswerLine | convert_md_to_quiz.py:73-75 | a question with an empty correct list is graded correct exactly when nothing is selected in it |
| Grading.FeedbackListsCorrect | convert_md_to_quiz.py:83 | on a wrong answer the feedback starts with the fixed text, and the rest reads back as exactly the correct labels |
| Grading.FullMarks | convert_md_to_quiz.py:66-88 | answering every key with a permutation of its labels scores total / total |
| Quiz.Convert | convert_md_to_quiz.py:11-94 | `parse_markdown_to_quiz_html`, reduced to the page's title, question markup and score script. It has no contract of its own; it is stated by `Quiz.ConvertSpec`, `Quiz.PageFullMarks` and `Quiz.ConvertBank` |
| Quiz.ConvertUntitled | convert_md_to_quiz.py:11 | the call without a title, which uses the default title `AWS Practice Exam`. It has no contract of its own; the title's use is stated by `Quiz.ConvertSpec` |
| Quiz.KeyOf | convert_md_to_quiz.py:37-67 | the object a page's script builds lists each of its keys exactly once in its key order |
| Quiz.ConvertSpec | convert_md_to_quiz.py:11-94 | the page keeps the title; its markup holds one input per option of every parsed question, in order; its script builds the key table of the parsed questions, with one entry per distinct question number |
| Quiz.KeyCount | convert_md_to_quiz.py:37-67 | the grading total is the number of distinct question numbers |
| Quiz.KeyInjective | convert_md_to_quiz.py:37 | distinct question numbers give distinct keys |
| Quiz.LastQuestionWins | convert_md_to_quiz.py:37 | the key of a question that no later question repeats holds that question's correct labels |
| Quiz.PageFullMarks | convert_md_to_quiz.py:37-89 | on a converted page, selecting a permutation of each key's labels scores full marks, and the total is the number of distinct question numbers |
| Quiz.ConvertBank | convert_md_to_quiz.py:11-37 | a bank written in the authors' layout becomes a page whose inputs and key table are exactly those of the questions it was written from |
| Bank.BlockRoundTrip | convert_md_to_quiz.py:17-26 | one question written as header, option lines and answer line parses back as that question |
| Bank.SplitBank | convert_md_to_quiz.py:12 | a written bank splits into exactly the written questions |
| Bank.ParseBank | convert_md_to_quiz.py:12-26 | the parser reads a written bank back as the questions it was written from, in order, repeated numbers included |
| Examples.MultiLabelAnswer | convert_md_to_quiz.py:25-31 | `Correct answer: A, C` and `Correct answer: A,C` both yield labels `A`, `C`, and the question gets checkbox inputs |
| Examples.OrderIndependent | convert_md_to_quiz.py:73-75 | `BA` matches `AB`, `CA` matches `AC`, while `A` and `ACD` do not match `AC` |
| Examples.EmptyAgainstEmpty | convert_md_to_quiz.py:73-75 | an empty selection against an empty correct list is correct, and `A` against it is not |
| Examples.SingleQuestion | convert_md_to_quiz.py:66-88 | with key `q1 -> B`, selecting `B` scores 1 / 1, while selecting `A` scores 0 / 1 with feedback naming `B` |
| Examples.ServerlessParse | convert_md_to_quiz.py:12-26 | the five-line serverless bank parses to one question with options A, B, C and answer B |
| Examples.ServerlessPage | convert_md_to_quiz.py:28-37 | that bank's page has three radio inputs in group `q1` with values A, B, C, and its key table is `q1 -> B` |

## Left out

- File handling, globbing and output writing (lines 6-9 and 96-110) are input and output, not part of the model. So is the title derived from the file name with `str.title()` (line 101).
- The fixed document shell is left out: doctype, style sheet, heading, form, button and result paragraph (lines 39-62 and 90-93). A page is modelled as its title, its question markup and its score script, which are the three parts that vary.
- The browser's document queries (lines 70 and 77) and the writes to `innerText` and `className` (lines 80-88) are left out. Grading takes the checked labels of each input group as a map, and returns the verdicts, score and total instead of writing them.
- The class names set on feedback elements (lines 81 and 84) are left out. They follow the verdict, which is modelled.
- The JavaScript engine is reduced to what the emitted script uses. That means reading the head line, and reading and executing `answers['<key>'] = [<quoted letters>];` lines.
- Non-ASCII whitespace and digits, which Python's `str.strip()`, `\s` and `\d` also accept, are left out. Their Unicode tables are outside the model.
- Prompts and option texts are inserted into the markup without escaping (lines 28 and 33), as in the code. No claim is made about markup injection. The markup reader `Render.Inputs` reads only an input tag that opens a line. An `<input …>` written inside a prompt (line 28) or an option text (line 33) is an input a browser would show, and the model does not see it, so `Render.QuestionsHtmlInputs` and `Quiz.ConvertSpec` say nothing about such inputs.
- When two questions share a number, the markup repeats the element ids `q<n>-container` and `q<n>-feedback`. Grading then writes to whichever element the browser returns first. The model keeps the repeated markup and records only the verdict per key.
- Bank.ParseBank: the round trip covers banks in the authors' layout (`Bank.Canonical`). Numbers must be non-empty digit strings. Prompts must be non-empty single lines that do not start with whitespace, since the header's greedy `\s+` at line 17 would take it. Prompts must not contain a dash that is last or followed by whitespace. Option texts must be non-empty single lines. Neither prompts nor option texts may contain `Correct answer: `. Every question must have an answer line with at least one label. Texts that look like markup can be parsed as markup, so no round trip holds for them.
- Quiz.KeyOf: only states that the resulting object lists each key once; that keys keep the position of their first assignment is not stated. Its content is stated by Quiz.ConvertSpec.

=== FILE: answerkey.dfy ===
/** The key table the grading routine reads: the object built by running
    the script's assignments. Keys keep the place of their first assignment;
    a later assignment to the same key replaces its labels. */
module AnswerKeys {
  import opened Text
  import opened Script

  datatype AnswerKey = AnswerKey(order: seq<String>, table: map<String, String>)

  /** The object's own invariant: the key order lists each key of the table once. */
  predicate Valid(k: AnswerKey) {
    && (forall i, j :: 0 <= i < j < |k.order| ==> k.order[i] != k.order[j])
    && (forall i :: 0 <= i < |k.order| ==> k.order[i] in k.table)
    && (forall x :: x in k.table ==> x in k.order)
  }

  /** `answers[key] = labels` */
  function Assign(k: AnswerKey, a: Assignment): AnswerKey {
    if a.key in k.table then AnswerKey(k.order, k.table[a.key := a.labels])
    else AnswerKey(k.order + [a.key], k.table[a.key := a.labels])
  }

  /** The key table after running the assignments in order from the empty table. */
  function Execute(assigns: seq<Assignment>): (k: AnswerKey)
    ensures Valid(k)
    ensures k.table.Keys == set i | 0 <= i < |assigns| :: assigns[i].key
    decreases |assigns|
  {
    if |assigns| == 0 then AnswerKey([], map[])
    else
      var n := |assigns| - 1;
      var prev := Execute(assigns[..n]);
      var k := Assign(prev, assigns[n]);
      assert forall i :: 0 <= i < n ==> assigns[..n][i] == assigns[i];
      k
  }

  /** Each key holds the labels of the last assignment to it. */
  lemma {:induction false} ExecuteLastWins(assigns: seq<Assignment>, i: nat)
    requires i < |assigns|
    requires forall j :: i < j < |assigns| ==> assigns[j].key != assigns[i].key
    ensures assigns[i].key in Execute(assigns).table
    ensures Execute(assigns).table[assigns[i].key] == assigns[i].labels
    decreases |assigns|
  {
    var n := |assigns| - 1;
    var pre := assigns[..n];
    var prev := Execute(pre);
    var last := assigns[n];
    assert Execute(assigns) == Assign(prev, last);
    assert Assign(prev, last).table == prev.table[last.key := last.labels];
    if i < n {
      assert pre[i] == assigns[i];
      assert forall j :: i < j < n ==> pre[j] == assigns[j];
      ExecuteLastWins(pre, i);
      assert last.key != assigns[i].key;
    }
  }

  /** A valid key table has as many entries in its order as in its table. */
  lemma ValidCount(k: AnswerKey)
    requires Valid(k)
    ensures |k.order| == |k.table|
  {
    assert k.table.Keys == set i | 0 <= i < |k.order| :: k.order[i];
    DistinctCard(k.order);
  }

  /** A duplicate-free sequence has as many distinct elements as positions. */
  lemma {:induction false} DistinctCard(s: seq<String>)
    requires forall i, j :: 0 <= i < j < |s| ==> s[i] != s[j]
    ensures |set i | 0 <= i < |s| :: s[i]| == |s|
    decreases |s|
  {
    if |s| > 0 {
      var n := |s| - 1;
      var pre := s[..n];
      DistinctCard(pre);
      var a := set i | 0 <= i < |pre| :: pre[i];
      var b := set i | 0 <= i < |s| :: s[i];
      assert s[n] !in a;
      assert b == a + {s[n]};
    }
  }
}

=== FILE: answers.dfy ===
/** The correct-answer extractor: the first match of
    `Correct answer: ([A-E](?:,\s?[A-E])*)` anywhere in the block, its
    captured list split at commas and stripped, so that only single labels
    remain, in the order written. No match gives the empty list. */
module Answers {
  import opened Text

  const Marker: String := "Correct answer: "

  /** The search pattern can match at `i`: the marker text followed by a label. */
  predicate MarkerAt(b: String, i: int) {
    0 <= i && i + |Marker| < |b| && b[i..i + |Marker|] == Marker && IsLabel(b[i + |Marker|])
  }

  /** The labels of the captured list `[A-E](?:,\s?[A-E])*` read from the
      start of `t`. The repetition is greedy and, since nothing follows it
      in the pattern, never backtracks; `\s?` is taken exactly when a
      whitespace character sits between the comma and the next label. */
  function LabelList(t: String): (cs: String)
    requires |t| >= 1 && IsLabel(t[0])
    ensures |cs| >= 1 && cs[0] == t[0] && AllLabels(cs)
    decreases |t|
  {
    if |t| >= 3 && t[1] == ',' && IsLabel(t[2]) then [t[0]] + LabelList(t[2..])
    else if |t| >= 4 && t[1] == ',' && IsSpace(t[2]) && IsLabel(t[3]) then [t[0]] + LabelList(t[3..])
    else [t[0]]
  }

  /** The labels joined with `", "`, as JavaScript's `join(", ")` prints a
      list of one-letter strings. */
  function FormatLabels(cs: String): String {
    if |cs| == 0 then ""
    else if |cs| == 1 then [cs[0]]
    else [cs[0]] + ", " + FormatLabels(cs[1..])
  }

  /** `t` would extend a list that ends just before it. */
  predicate Continues(t: String) {
    |t| >= 2 && t[0] == ',' && (IsLabel(t[1]) || (|t| >= 3 && IsSpace(t[1]) && IsLabel(t[2])))
  }

  /** A separator the captured list allows between two labels: a comma,
      optionally followed by one whitespace character (`,\s?`). */
  predicate Separator(sep: String) {
    (|sep| == 1 && sep[0] == ',') || (|sep| == 2 && sep[0] == ',' && IsSpace(sep[1]))
  }

  predicate Separators(seps: seq<String>) {
    forall i :: 0 <= i < |seps| ==> Separator(seps[i])
  }

  /** The labels `cs` as an author may write them, with `seps[i]` between
      `cs[i]` and `cs[i + 1]`. */
  function Written(cs: String, seps: seq<String>): (w: String)
    requires |cs| >= 1 && |seps| + 1 == |cs|
    ensures |w| >= 1 && w[0] == cs[0]
    decreases |cs|
  {
    if |cs| == 1 then [cs[0]] else [cs[0]] + seps[0] + Written(cs[1..], seps[1..])
  }

  /** The separators `FormatLabels` writes: `", "` in every gap. */
  function CommaSpaces(n: nat): (seps: seq<String>)
    ensures |seps| == n && Separators(seps)
  {
    seq(n, _ => ", ")
  }

  /** A formatted list is a written list whose separators are all `", "`. */
  lemma {:induction false} FormatIsWritten(cs: String)
    requires |cs| >= 1
    ensures FormatLabels(cs) == Written(cs, CommaSpaces(|cs| - 1))
    decreases |cs|
  {
    if |cs| > 1 {
      FormatIsWritten(cs[1..]);
      assert CommaSpaces(|cs| - 1)[1..] == CommaSpaces(|cs| - 2);
    }
  }

  /** Reading back a written list gives the same labels in the same order,
      whichever allowed separator stands in each gap. */
  lemma {:induction false} LabelListWritten(cs: String, seps: seq<String>, post: String)
    requires |cs| >= 1 && |seps| + 1 == |cs| && AllLabels(cs) && Separators(seps) && !Continues(post)
    ensures |Written(cs, seps) + post| >= 1 && LabelList(Written(cs, seps) + post) == cs
    decreases |cs|
  {
    var t := Written(cs, seps) + post;
    if |cs| == 1 {
      assert t == [cs[0]] + post;
    } else {
      var rest := Written(cs[1..], seps[1..]) + post;
      var sep := seps[0];
      assert Separator(sep);
      assert t == [cs[0]] + sep + rest;
      assert AllLabels(cs[1..]) by {
        assert forall i :: 0 <= i < |cs[1..]| ==> cs[1..][i] == cs[i + 1];
      }
      assert Separators(seps[1..]) by {
        assert forall i :: 0 <= i < |seps[1..]| ==> seps[1..][i] == seps[i + 1];
      }
      LabelListWritten(cs[1..], seps[1..], post);
      assert rest[0] == cs[1];
      if |sep| == 1 {
        assert t[1] == ',' && t[2] == cs[1];
        assert t[2..] == rest;
      } else {
        assert t[1] == ',' && IsSpace(t[2]) && !IsLabel(t[2]) && t[3] == cs[1];
        assert t[3..] == rest;
      }
      assert cs == [cs[0]] + cs[1..];
    }
  }

  /** Reading back a formatted list gives the same labels in the same order. */
  lemma LabelListFormat(cs: String, post: String)
    requires |cs| >= 1 && AllLabels(cs) && !Continues(post)
    ensures |FormatLabels(cs) + post| >= 1 && LabelList(FormatLabels(cs) + post) == cs
  {
    FormatIsWritten(cs);
    LabelListWritten(cs, CommaSpaces(|cs| - 1), post);
  }

  /** The first position at or after `i` where the pattern matches. */
  function FindMarker(b: String, i: nat): (r: Option<nat>)
    requires i <= |b|
    ensures r.Some? ==> i <= r.value && MarkerAt(b, r.value)
    ensures r.Some? ==> forall p :: i <= p < r.value ==> !MarkerAt(b, p)
    ensures r.None? ==> forall p :: i <= p ==> !MarkerAt(b, p)
    decreases |b| - i
  {
    if i == |b| then None else if MarkerAt(b, i) then Some(i) else FindMarker(b, i + 1)
  }

  /** The correct labels of a block. */
  function CorrectAnswers(b: String): String {
    match FindMarker(b, 0)
    case None => ""
    case Some(p) => LabelList(b[p + |Marker|..])
  }

  /** The list is empty exactly when no marker followed by a label occurs;
      otherwise it comes from the leftmost such marker. Either way it holds
      labels only. */
  lemma CorrectAnswersSpec(b: String)
    ensures AllLabels(CorrectAnswers(b))
    ensures CorrectAnswers(b) == "" <==> forall p :: !MarkerAt(b, p)
    ensures CorrectAnswers(b) != "" ==>
              exists p :: MarkerAt(b, p) && (forall p' :: 0 <= p' < p ==> !MarkerAt(b, p'))
                && CorrectAnswers(b) == LabelList(b[p + |Marker|..])
  {
    match FindMarker(b, 0)
    case None =>
    case Some(p) =>
      assert MarkerAt(b, p);
  }

  /** A block whose first marker is followed by a written list yields
      exactly the labels written, in order. */
  lemma AnswerLine(pre: String, cs: String, seps: seq<String>, post: String)
    requires |cs| >= 1 && |seps| + 1 == |cs| && AllLabels(cs) && Separators(seps) && !Continues(post)
    requires forall p :: 0 <= p < |pre| ==> !MarkerAt(pre + Marker + (Written(cs, seps) + post), p)
    ensures CorrectAnswers(pre + Marker + (Written(cs, seps) + post)) == cs
  {
    var list := Written(cs, seps) + post;
    LabelListWritten(cs, seps, post);
    MarkerBefore(pre, list);
    LeftmostMarker(pre + Marker + list, |pre|);
  }

  /** The marker written in front of a list that starts with a label is a match. */
  lemma MarkerBefore(pre: String, list: String)
    requires |list| >= 1 && IsLabel(list[0])
    ensures MarkerAt(pre + Marker + list, |pre|)
    ensures (pre + Marker + list)[|pre| + |Marker|..] == list
  {
    var b := pre + Marker + list;
    assert b[|pre|..|pre| + |Marker|] == Marker;
  }

  /** The search stops at the leftmost match. */
  lemma LeftmostMarker(b: String, i: nat)
    requires MarkerAt(b, i) && forall p :: 0 <= p < i ==> !MarkerAt(b, p)
    ensures FindMarker(b, 0) == Some(i)
  {
  }
}

=== FILE: bank.dfy ===
/** A question bank written the way its authors lay it out: per question a
    header line `<number>. <prompt>`, one line `- <label>. <text>` per
    option, and a closing line `Correct answer: <labels>`; questions are
    separated by a line feed. When prompt and option texts cannot be
    mistaken for the markup around them, the parser reads such a bank
    back as exactly the questions it was written from. */
module Bank {
  import opened Text
  import opened Questions
  import Splitter
  import Header
  import Options
  import Answers

  function HeaderLine(q: Question): String {
    q.number + ". " + q.prompt
  }

  function OptionText(c: Choice): String {
    "- " + [c.letter] + ". " + c.text
  }

  function AnswerText(cs: String): String {
    Answers.Marker + Answers.FormatLabels(cs)
  }

  /** The option lines, each closed by a line feed. */
  function OptionsText(opts: seq<Choice>): String {
    if |opts| == 0 then "" else OptionText(opts[0]) + "\n" + OptionsText(opts[1..])
  }

  /** Everything after the header line: the option lines, then the answer line. */
  function Body(opts: seq<Choice>, cs: String): String {
    if |opts| == 0 then AnswerText(cs) else OptionText(opts[0]) + "\n" + Body(opts[1..], cs)
  }

  function QuestionText(q: Question): String {
    HeaderLine(q) + "\n" + Body(q.options, q.correct)
  }

  function Texts(qs: seq<Question>): seq<String> {
    seq(|qs|, i requires 0 <= i < |qs| => QuestionText(qs[i]))
  }

  /** The whole bank: the questions' texts joined by line feeds. */
  function BankText(qs: seq<Question>): String {
    JoinLines(Texts(qs))
  }

  /** The answer marker occupies `s[p..p + |Marker|]`. */
  predicate HasMarkerAt(s: String, p: int) {
    0 <= p && p + |Answers.Marker| <= |s| && s[p..p + |Answers.Marker|] == Answers.Marker
  }

  predicate MarkerFree(s: String) {
    forall p :: 0 <= p <= |s| ==> !HasMarkerAt(s, p)
  }

  /** No hyphen in `s` is followed by whitespace or ends it, so no option
      can begin inside `s` even when a line feed follows it. */
  predicate DashFree(s: String) {
    forall j :: 0 <= j < |s| && s[j] == '-' ==> j + 1 < |s| && !IsSpace(s[j + 1])
  }

  /** A question the layout above can carry: a digit number; a prompt that
      is one line, does not open with whitespace, and holds neither an
      option start nor the answer marker; options on one line each, free of
      the answer marker; and at least one correct label. */
  predicate Canonical(q: Question) {
    && |q.number| >= 1 && AllDigits(q.number)
    && |q.prompt| >= 1 && !IsSpace(q.prompt[0]) && NewlineFree(q.prompt)
    && DashFree(q.prompt) && MarkerFree(q.prompt)
    && (forall i :: 0 <= i < |q.options| ==> CanonicalChoice(q.options[i]))
    && |q.correct| >= 1 && AllLabels(q.correct)
  }

  predicate CanonicalChoice(c: Choice) {
    IsLabel(c.letter) && |c.text| >= 1 && NewlineFree(c.text) && MarkerFree(c.text)
  }

  // ---------------------------------------------------------------------
  // The answer line

  /** The characters of a formatted list: labels, commas and spaces; it
      ends with the last label. */
  lemma {:induction false} FormatLabelsShape(cs: String)
    requires |cs| >= 1 && AllLabels(cs)
    ensures var f := Answers.FormatLabels(cs);
            && |f| >= 1 && f[|f| - 1] == cs[|cs| - 1]
            && (forall j :: 0 <= j < |f| ==> IsLabel(f[j]) || f[j] == ',' || f[j] == ' ')
    decreases |cs|
  {
    if |cs| > 1 {
      FormatLabelsShape(cs[1..]);
      var rest := Answers.FormatLabels(cs[1..]);
      var f := Answers.FormatLabels(cs);
      assert f == [cs[0]] + ", " + rest;
      assert forall j :: 3 <= j < |f| ==> f[j] == rest[j - 3];
    }
  }

  lemma AnswerTextShape(cs: String)
    requires |cs| >= 1 && AllLabels(cs)
    ensures var a := AnswerText(cs);
            && |a| > |Answers.Marker| && a[0] == 'C' && IsLabel(a[|a| - 1])
            && NewlineFree(a)
            && (forall j :: 0 <= j < |a| ==> a[j] != '-')
  {
    FormatLabelsShape(cs);
    var f := Answers.FormatLabels(cs);
    var a := AnswerText(cs);
    assert forall j :: |Answers.Marker| <= j < |a| ==> a[j] == f[j - |Answers.Marker|];
    assert forall j :: 0 <= j < |Answers.Marker| ==> a[j] == Answers.Marker[j];
  }

  /** The body is the option lines followed by the answer line. */
  lemma {:induction false} BodySplit(opts: seq<Choice>, cs: String)
    ensures Body(opts, cs) == OptionsText(opts) + AnswerText(cs)
    decreases |opts|
  {
    if |opts| > 0 {
      BodySplit(opts[1..], cs);
    }
  }

  // ---------------------------------------------------------------------
  // Where the answer marker can occur

  /** A marker window never spans a line feed, so joining two marker-free
      texts with one adds none, and a prefix of `y` without markers stays
      without markers behind `x + "\n"`. */
  lemma NoMarkerBefore(x: String, y: String, n: nat)
    requires MarkerFree(x)
    requires forall p :: 0 <= p < n ==> !HasMarkerAt(y, p)
    ensures forall p :: 0 <= p < |x| + 1 + n ==> !HasMarkerAt(x + "\n" + y, p)
  {
    var b := x + "\n" + y;
    var w := |Answers.Marker|;
    forall p | 0 <= p < |x| + 1 + n
      ensures !HasMarkerAt(b, p)
    {
      if p + w <= |b| {
        if p + w <= |x| {
          SliceLeft(x, "\n" + y, p, w);
          assert !HasMarkerAt(x, p);
        } else if p <= |x| {
          assert b[p..p + w][|x| - p] == '\n';
          assert Answers.Marker[|x| - p] != '\n';
        } else {
          var q := p - |x| - 1;
          SliceRight(x + "\n", y, q, w);
          assert !HasMarkerAt(y, q);
        }
      }
    }
  }

  lemma SliceLeft(x: String, y: String, p: nat, w: nat)
    requires p + w <= |x|
    ensures (x + y)[p..p + w] == x[p..p + w]
  {
  }

  lemma SliceRight(x: String, y: String, q: nat, w: nat)
    requires q + w <= |y|
    ensures (x + y)[|x| + q..|x| + q + w] == y[q..q + w]
  {
  }

  /** A short lead-in with no `C` that could start the marker (a `C` not
      followed by `o`) adds no marker in front of a marker-free text. */
  lemma MarkerFreeLead(lead: String, t: String)
    requires MarkerFree(t)
    requires forall i :: 0 <= i < |lead| && lead[i] == 'C' ==> i + 1 < |lead| && lead[i + 1] != 'o'
    ensures MarkerFree(lead + t)
  {
    var b := lead + t;
    var w := |Answers.Marker|;
    forall p | 0 <= p <= |b|
      ensures !HasMarkerAt(b, p)
    {
      if p + w > |b| {
      } else if p >= |lead| {
        assert b[p..p + w] == t[p - |lead|..p - |lead| + w];
        assert !HasMarkerAt(t, p - |lead|);
      } else {
        LeadMismatch(lead, t, p);
      }
    }
  }

  /** A position inside the lead-in cannot start the marker. */
  lemma LeadMismatch(lead: String, t: String, p: nat)
    requires p < |lead|
    requires lead[p] == 'C' ==> p + 1 < |lead| && lead[p + 1] != 'o'
    ensures !HasMarkerAt(lead + t, p)
  {
    var b := lead + t;
    var w := |Answers.Marker|;
    if p + w <= |b| {
      var seg := b[p..p + w];
      assert seg[0] == b[p] == lead[p];
      assert Answers.Marker[0] == 'C' && Answers.Marker[1] == 'o';
      if lead[p] == 'C' {
        assert seg[1] == b[p + 1] == lead[p + 1];
      }
    }
  }

  lemma HeaderLineMarkerFree(q: Question)
    requires Canonical(q)
    ensures MarkerFree(HeaderLine(q))
  {
    var lead := q.number + ". ";
    assert forall i :: 0 <= i < |lead| ==> lead[i] != 'C';
    MarkerFreeLead(lead, q.prompt);
  }

  lemma OptionTextMarkerFree(c: Choice)
    requires CanonicalChoice(c)
    ensures MarkerFree(OptionText(c))
  {
    var lead := "- " + [c.letter] + ". ";
    MarkerFreeLead(lead, c.text);
  }

  /** No marker starts among the option lines. */
  lemma {:induction false} BodyNoMarker(opts: seq<Choice>, cs: String)
    requires forall i :: 0 <= i < |opts| ==> CanonicalChoice(opts[i])
    ensures forall p :: 0 <= p < |OptionsText(opts)| ==> !HasMarkerAt(Body(opts, cs), p)
    decreases |opts|
  {
    if |opts| > 0 {
      BodyNoMarker(opts[1..], cs);
      OptionTextMarkerFree(opts[0]);
      NoMarkerBefore(OptionText(opts[0]), Body(opts[1..], cs), |OptionsText(opts[1..])|);
    }
  }

  /** The correct-answer list of a written question is its correct labels. */
  lemma QuestionAnswers(q: Question)
    requires Canonical(q)
    ensures Answers.CorrectAnswers(QuestionText(q)) == q.correct
  {
    var opts := q.options;
    var cs := q.correct;
    BodyNoMarker(opts, cs);
    HeaderLineMarkerFree(q);
    NoMarkerBefore(HeaderLine(q), Body(opts, cs), |OptionsText(opts)|);
    BodySplit(opts, cs);
    var pre := HeaderLine(q) + "\n" + OptionsText(opts);
    var b := QuestionText(q);
    assert b == pre + Answers.Marker + (Answers.FormatLabels(cs) + "");
    assert forall p :: 0 <= p < |pre| ==> !Answers.MarkerAt(b, p) by {
      forall p | 0 <= p < |pre|
        ensures !Answers.MarkerAt(b, p)
      {
        assert !HasMarkerAt(b, p);
      }
    }
    Answers.FormatIsWritten(cs);
    Answers.AnswerLine(pre, cs, Answers.CommaSpaces(|cs| - 1), "");
  }

  // ---------------------------------------------------------------------
  // Where options are found

  /** After `pre`, the option lines of the body are found one by one, and
      nothing in the answer line is taken for an option. */
  lemma {:induction false} BodyOptions(pre: String, opts: seq<Choice>, cs: String)
    requires forall i :: 0 <= i < |opts| ==> CanonicalChoice(opts[i])
    requires |cs| >= 1 && AllLabels(cs)
    ensures Choices(Options.FindAll(pre + Body(opts, cs), |pre|)) == opts
    decreases |opts|
  {
    var b := pre + Body(opts, cs);
    if |opts| == 0 {
      AnswerTextShape(cs);
      assert forall p :: |pre| <= p < |b| ==> b[p] != '-' by {
        assert forall p :: |pre| <= p < |b| ==> b[p] == AnswerText(cs)[p - |pre|];
      }
      Options.FindAllSkip(b, |pre|, |b|);
    } else {
      var c := opts[0];
      var rest := Body(opts[1..], cs);
      var pre' := pre + OptionText(c) + "\n";
      assert b == pre + OptionText(c) + "\n" + rest;
      OptionStep(pre, c, rest);
      assert b == pre' + rest;
      BodyOptions(pre', opts[1..], cs);
      assert opts == [c] + opts[1..];
    }
  }

  /** An option line after `pre` is found as exactly that option, and the
      search resumes after its line feed. */
  lemma OptionStep(pre: String, c: Choice, rest: String)
    requires CanonicalChoice(c)
    ensures var b := pre + OptionText(c) + "\n" + rest;
            Choices(Options.FindAll(b, |pre|))
              == [c] + Choices(Options.FindAll(b, |pre + OptionText(c) + "\n"|))
  {
    var b := pre + OptionText(c) + "\n" + rest;
    var m := OptionFound(pre, c, rest);
    FindAllAfterLine(b, m);
    ChoicesCons(m, Options.FindAll(b, m.end + 1));
  }

  /** The option line after `pre` is matched as exactly that option, up to
      its line feed. */
  lemma OptionFound(pre: String, c: Choice, rest: String) returns (m: Options.OptionMatch)
    requires CanonicalChoice(c)
    ensures var b := pre + OptionText(c) + "\n" + rest;
            && m.start == |pre| && m.end == |pre + OptionText(c)| && m.end < |b| && b[m.end] == '\n'
            && Options.OptionAt(b, |pre|) == Some(m)
            && Choice(m.letter, m.text) == c
  {
    var b := pre + OptionText(c) + "\n" + rest;
    var post := "\n" + rest;
    assert b == pre + "- " + [c.letter] + ". " + c.text + post;
    Options.OptionLine(pre, c.letter, c.text, post);
    m := Options.OptionMatch(|pre|, |b| - |post|, c.letter, c.text);
  }

  /** A match that ends at a line feed is followed by the matches after that line feed. */
  lemma FindAllAfterLine(b: String, m: Options.OptionMatch)
    requires m.start <= m.end < |b| && b[m.end] == '\n'
    requires Options.OptionAt(b, m.start) == Some(m)
    ensures Options.FindAll(b, m.start) == [m] + Options.FindAll(b, m.end + 1)
  {
    Options.FindAllAt(b, m.start);
    LineFeedNoOption(b, m.end);
    Options.FindAllSkipOne(b, m.end);
  }

  /** No option starts at a line feed. */
  lemma LineFeedNoOption(b: String, i: nat)
    requires i < |b| && b[i] == '\n'
    ensures Options.OptionAt(b, i).None?
  {
  }

  lemma ChoicesCons(m: Options.OptionMatch, ms: seq<Options.OptionMatch>)
    ensures Choices([m] + ms) == [Choice(m.letter, m.text)] + Choices(ms)
  {
    var l := [m] + ms;
    assert forall i :: 1 <= i < |l| ==> l[i] == ms[i - 1];
  }

  /** The header line holds no option start. */
  lemma HeaderNoOption(q: Question)
    requires Canonical(q)
    ensures forall p :: 0 <= p <= |HeaderLine(q)| ==> Options.OptionAt(QuestionText(q), p).None?
  {
    var b := QuestionText(q);
    var n := |q.number|;
    var h := HeaderLine(q);
    assert forall j :: 0 <= j < n ==> b[j] == q.number[j];
    assert b[n] == '.' && b[n + 1] == ' ';
    assert forall j :: 0 <= j < |q.prompt| ==> b[n + 2 + j] == q.prompt[j];
    assert b[|h|] == '\n';
    forall p | 0 <= p <= |h|
      ensures Options.OptionAt(b, p).None?
    {
      if p >= n + 2 && p < |h| && b[p] == '-' {
        var j := p - n - 2;
        assert q.prompt[j] == '-';
        assert b[p + 1] == q.prompt[j + 1];
      }
    }
  }

  lemma QuestionOptions(q: Question)
    requires Canonical(q)
    ensures Choices(Options.FindAll(QuestionText(q), 0)) == q.options
  {
    var b := QuestionText(q);
    var pre := HeaderLine(q) + "\n";
    HeaderNoOption(q);
    Options.FindAllSkip(b, 0, |pre|);
    assert b == pre + Body(q.options, q.correct);
    BodyOptions(pre, q.options, q.correct);
  }

  // ---------------------------------------------------------------------
  // One block

  /** A written question reads back as itself. */
  lemma BlockRoundTrip(q: Question)
    requires Canonical(q)
    ensures ParseBlock(QuestionText(q)) == Some(q)
  {
    Header.HeaderRoundTrip(q.number, q.prompt, Body(q.options, q.correct));
    QuestionOptions(q);
    QuestionAnswers(q);
    var ms := Options.FindAll(QuestionText(q), 0);
    assert Choices(ms) == q.options;
  }

  // ---------------------------------------------------------------------
  // Splitting the bank

  /** Every line feed of `b` is followed by a character that is not a digit,
      so no cut falls inside `b`. */
  predicate CutFree(b: String) {
    forall m :: 0 <= m < |b| && b[m] == '\n' ==> m + 1 < |b| && !IsDigit(b[m + 1])
  }

  lemma CutFreeJoin(x: String, y: String)
    requires NewlineFree(x) && CutFree(y) && |y| >= 1 && !IsDigit(y[0])
    ensures CutFree(x + "\n" + y)
  {
    var b := x + "\n" + y;
    forall m | 0 <= m < |b| && b[m] == '\n'
      ensures m + 1 < |b| && !IsDigit(b[m + 1])
    {
      if m > |x| {
        assert b[m] == y[m - |x| - 1];
        assert b[m + 1] == y[m - |x|];
      }
    }
  }

  lemma OptionTextNewlineFree(c: Choice)
    requires CanonicalChoice(c)
    ensures NewlineFree(OptionText(c))
  {
    assert forall j :: 5 <= j < |OptionText(c)| ==> OptionText(c)[j] == c.text[j - 5];
  }

  /** The body opens with `-` or `C`, ends with a label and holds no cut. */
  lemma {:induction false} BodyShape(opts: seq<Choice>, cs: String)
    requires forall i :: 0 <= i < |opts| ==> CanonicalChoice(opts[i])
    requires |cs| >= 1 && AllLabels(cs)
    ensures var d := Body(opts, cs);
            && |d| >= 1 && (d[0] == '-' || d[0] == 'C') && IsLabel(d[|d| - 1]) && CutFree(d)
    decreases |opts|
  {
    AnswerTextShape(cs);
    if |opts| > 0 {
      BodyShape(opts[1..], cs);
      OptionTextNewlineFree(opts[0]);
      CutFreeJoin(OptionText(opts[0]), Body(opts[1..], cs));
    }
  }

  /** A written question opens with its number, a full stop and a space,
      ends with a label, and holds no cut. */
  lemma QuestionShape(q: Question)
    requires Canonical(q)
    ensures var b := QuestionText(q);
            && Text.DigitRun(b, 0) == |q.number| && |q.number| + 1 < |b|
            && b[|q.number|] == '.' && b[|q.number| + 1] == ' '
            && IsDigit(b[0]) && IsLabel(b[|b| - 1]) && CutFree(b)
  {
    var b := QuestionText(q);
    BodyShape(q.options, q.correct);
    var d := Body(q.options, q.correct);
    QuestionNumber(q, d);
    HeaderLineNewlineFree(q);
    CutFreeJoin(HeaderLine(q), d);
    assert b[|b| - 1] == d[|d| - 1];
  }

  /** A written question opens with its number, a full stop and a space. */
  lemma QuestionNumber(q: Question, d: String)
    requires Canonical(q) && d == Body(q.options, q.correct)
    ensures var b := QuestionText(q);
            && Text.DigitRun(b, 0) == |q.number| && |q.number| + 1 < |b|
            && b[|q.number|] == '.' && b[|q.number| + 1] == ' ' && IsDigit(b[0])
  {
    var b := QuestionText(q);
    var n := |q.number|;
    assert b == q.number + (". " + q.prompt + "\n" + d);
    assert forall j :: 0 <= j < n ==> b[j] == q.number[j];
    assert b[n] == '.';
    Text.DigitRunTo(b, n, 0);
  }

  lemma HeaderLineNewlineFree(q: Question)
    requires Canonical(q)
    ensures NewlineFree(HeaderLine(q))
  {
    var n := |q.number|;
    assert forall j :: n + 2 <= j < |HeaderLine(q)| ==> HeaderLine(q)[j] == q.prompt[j - n - 2];
  }

  /** The joined text of a non-empty list opens with the first piece,
      followed by a line feed or nothing. */
  lemma JoinFirst(bs: seq<String>)
    requires |bs| >= 1
    ensures |JoinLines(bs)| >= |bs[0]|
    ensures JoinLines(bs)[..|bs[0]|] == bs[0]
    ensures |JoinLines(bs)| > |bs[0]| ==> JoinLines(bs)[|bs[0]|] == '\n'
  {
    if |bs| > 1 {
      assert JoinLines(bs) == bs[0] + "\n" + JoinLines(bs[1..]);
    }
  }

  /** A question text followed by a line feed or nothing starts with a
      header and holds no cut before its end. */
  lemma BlockInContext(q: Question, t: String)
    requires Canonical(q)
    requires |t| >= |QuestionText(q)| && t[..|QuestionText(q)|] == QuestionText(q)
    requires |t| > |QuestionText(q)| ==> t[|QuestionText(q)|] == '\n'
    ensures Splitter.HeaderAhead(t)
    ensures forall m :: 0 <= m < |QuestionText(q)| ==> !Splitter.CutAt(t, m)
  {
    var b := QuestionText(q);
    QuestionShape(q);
    assert forall j :: 0 <= j < |b| ==> t[j] == b[j];
    Text.DigitRunTo(t, |q.number|, 0);
    forall m | 0 <= m < |b|
      ensures !Splitter.CutAt(t, m)
    {
      if t[m] == '\n' {
        assert b[m] == '\n';
        assert t[m + 1..][0] == b[m + 1];
      }
    }
  }

  /** The bank splits into exactly the question texts. */
  lemma SplitBank(qs: seq<Question>)
    requires |qs| >= 1
    requires forall i :: 0 <= i < |qs| ==> Canonical(qs[i])
    ensures Splitter.Split(BankText(qs)) == Texts(qs)
  {
    var bs := Texts(qs);
    forall k | 0 <= k < |bs|
      ensures Splitter.HeaderAhead(JoinLines(bs[k..]))
      ensures forall m :: 0 <= m < |bs[k]| ==> !Splitter.CutAt(JoinLines(bs[k..]), m)
    {
      JoinFirst(bs[k..]);
      assert bs[k..][0] == QuestionText(qs[k]);
      BlockInContext(qs[k], JoinLines(bs[k..]));
    }
    Splitter.SplitUnique(BankText(qs), bs);
  }

  /** The question texts read back as the questions. */
  lemma {:induction false} BlocksRoundTrip(qs: seq<Question>)
    requires forall i :: 0 <= i < |qs| ==> Canonical(qs[i])
    ensures ParseBlocks(Texts(qs)) == qs
    decreases |qs|
  {
    if |qs| > 0 {
      BlockRoundTrip(qs[0]);
      TextsCons(qs);
      BlocksRoundTrip(qs[1..]);
      ParseBlocksCons(QuestionText(qs[0]), Texts(qs[1..]), qs[0]);
      assert qs == [qs[0]] + qs[1..];
    } else {
      assert Texts(qs) == [];
    }
  }

  lemma TextsCons(qs: seq<Question>)
    requires |qs| >= 1
    ensures Texts(qs) == [QuestionText(qs[0])] + Texts(qs[1..])
  {
  }

  lemma ParseBlocksCons(b: String, bs: seq<String>, q: Question)
    requires ParseBlock(b) == Some(q)
    ensures ParseBlocks([b] + bs) == [q] + ParseBlocks(bs)
  {
    assert ([b] + bs)[1..] == bs;
  }

  /** The joined text opens with the first piece's first character and
      closes with the last piece's last character. */
  lemma {:induction false} JoinEnds(bs: seq<String>)
    requires |bs| >= 1 && forall i :: 0 <= i < |bs| ==> |bs[i]| >= 1
    ensures var s := JoinLines(bs);
            && |s| >= 1 && s[0] == bs[0][0] && s[|s| - 1] == bs[|bs| - 1][|bs[|bs| - 1]| - 1]
    decreases |bs|
  {
    if |bs| > 1 {
      JoinEnds(bs[1..]);
      assert JoinLines(bs) == bs[0] + "\n" + JoinLines(bs[1..]);
    }
  }

  /** The parser reads a written bank back as the questions it was written
      from, in order, repeated numbers included. */
  lemma ParseBank(qs: seq<Question>)
    requires forall i :: 0 <= i < |qs| ==> Canonical(qs[i])
    ensures Parse(BankText(qs)) == qs
  {
    if |qs| == 0 {
      assert BankText(qs) == "";
      ParseEmpty();
    } else {
      BankTextEnds(qs);
      StripUnchanged(BankText(qs));
      SplitBank(qs);
      BlocksRoundTrip(qs);
    }
  }

  /** An empty bank has no questions. */
  lemma ParseEmpty()
    ensures Parse("") == []
  {
    assert Splitter.Split("") == [""];
    assert Header.MatchSpan("").None?;
  }

  /** A written bank opens with a digit and closes with a label, so
      stripping leaves it alone. */
  lemma BankTextEnds(qs: seq<Question>)
    requires |qs| >= 1
    requires forall i :: 0 <= i < |qs| ==> Canonical(qs[i])
    ensures var s := BankText(qs);
            |s| >= 1 && !IsSpace(s[0]) && !IsSpace(s[|s| - 1])
  {
    TextsShape(qs);
    JoinEnds(Texts(qs));
  }

  /** Each written question opens with a digit and closes with a label. */
  lemma TextsShape(qs: seq<Question>)
    requires forall i :: 0 <= i < |qs| ==> Canonical(qs[i])
    ensures forall i :: 0 <= i < |qs| ==> |Texts(qs)[i]| >= 1 && IsDigit(Texts(qs)[i][0])
    ensures forall i :: 0 <= i < |qs| ==> IsLabel(Texts(qs)[i][|Texts(qs)[i]| - 1])
  {
    forall i | 0 <= i < |qs|
      ensures |Texts(qs)[i]| >= 1 && IsDigit(Texts(qs)[i][0])
      ensures IsLabel(Texts(qs)[i][|Texts(qs)[i]| - 1])
    {
      QuestionShape(qs[i]);
    }
  }
}

=== FILE: examples.dfy ===
/** Concrete inputs worked through the model. */
module Examples {
  import opened Text
  import opened Questions
  import Answers
  import Render
  import Bank
  import Script
  import Quiz
  import opened AnswerKeys
  import opened Grading

  /** A multi-label answer line lists the labels in the order written,
      with or without a space after each comma, and its question is
      answered with checkboxes. */
  lemma MultiLabelAnswer()
    ensures Answers.CorrectAnswers("Correct answer: A, C") == "AC"
    ensures Answers.CorrectAnswers("Correct answer: A,C") == "AC"
    ensures Render.InputType("AC") == "checkbox"
  {
    assert Answers.Written("AC", [", "]) == "A, C" by {
      assert "AC"[1..] == "C";
    }
    assert "Correct answer: A, C" == "" + Answers.Marker + (Answers.Written("AC", [", "]) + "");
    Answers.AnswerLine("", "AC", [", "], "");
    assert Answers.Written("AC", [","]) == "A,C" by {
      assert "AC"[1..] == "C";
    }
    assert "Correct answer: A,C" == "" + Answers.Marker + (Answers.Written("AC", [","]) + "");
    Answers.AnswerLine("", "AC", [","], "");
  }

  /** Grading compares label sets, not the order of selection. */
  lemma OrderIndependent()
    ensures Judge("BA", "AB").correct
    ensures Judge("CA", "AC").correct
    ensures !Judge("A", "AC").correct
    ensures !Judge("ACD", "AC").correct
  {
    assert multiset("A") != multiset("AC") by {
      assert multiset("A")['C'] == 0;
    }
    assert multiset("ACD") != multiset("AC") by {
      assert multiset("AC")['D'] == 0;
    }
  }

  /** With no answer line, an empty selection is graded correct. */
  lemma EmptyAgainstEmpty()
    ensures Judge("", "").correct
    ensures !Judge("A", "").correct
  {
    assert multiset("A")['A'] == 1;
  }

  /** The key table of the one-question bank below: selecting the right
      label scores 1 / 1; a wrong label scores 0 / 1 with feedback naming
      the right one. */
  lemma SingleQuestion()
    ensures Grade(map["q1" := "B"], AnswerKey(["q1"], map["q1" := "B"])).score == 1
    ensures Grade(map["q1" := "B"], AnswerKey(["q1"], map["q1" := "B"])).total == 1
    ensures Grade(map["q1" := "A"], AnswerKey(["q1"], map["q1" := "B"])).score == 0
    ensures Grade(map["q1" := "A"], AnswerKey(["q1"], map["q1" := "B"])).verdicts["q1"].feedback
            == IncorrectText + "B"
  {
    assert multiset("A") != multiset("B") by {
      assert multiset("A")['B'] == 0;
    }
    assert Answers.FormatLabels("B") == "B";
  }

  /** The bank `1. Which service is serverless?` / `- A. EC2` / `- B. Lambda`
      / `- C. RDS` / `Correct answer: B`, one line each. */
  const ServerlessLines: seq<String> :=
    ["1. " + ServerlessPromptText, "- A. EC2", "- B. Lambda", "- C. RDS", "Correct answer: B"]

  const ServerlessPromptText: String := "Which service is serverless?"

  const Serverless: String := JoinLines(ServerlessLines)

  const ServerlessQuestion: Question :=
    Question("1", ServerlessPromptText,
             [Choice('A', "EC2"), Choice('B', "Lambda"), Choice('C', "RDS")], "B")

  /** A text without the marker's first letter holds no marker. */
  lemma NoMarkerWithoutC(s: String)
    requires 'C' !in s
    ensures Bank.MarkerFree(s)
  {
    forall p | 0 <= p <= |s|
      ensures !Bank.HasMarkerAt(s, p)
    {
      if p + |Answers.Marker| <= |s| {
        assert s[p..p + |Answers.Marker|][0] == s[p];
        assert s[p] in s;
      }
    }
  }

  /** A text free of some character holds no occurrence of it. */
  lemma Absent(s: String, c: char)
    requires c !in s
    ensures forall j :: 0 <= j < |s| ==> s[j] != c
  {
  }

  lemma ServerlessPrompt()
    ensures var p := ServerlessPromptText;
            !IsSpace(p[0]) && NewlineFree(p) && Bank.DashFree(p) && Bank.MarkerFree(p)
  {
    PromptMarkerFree();
    PromptNewlineFree();
    PromptDashFree();
  }

  lemma PromptMarkerFree()
    ensures Bank.MarkerFree(ServerlessPromptText)
  {
    NoMarkerWithoutC(ServerlessPromptText);
  }

  lemma PromptNewlineFree()
    ensures NewlineFree(ServerlessPromptText)
  {
    Absent(ServerlessPromptText, '\n');
  }

  lemma PromptDashFree()
    ensures Bank.DashFree(ServerlessPromptText)
  {
    Absent(ServerlessPromptText, '-');
  }

  lemma ServerlessChoices()
    ensures forall i :: 0 <= i < |ServerlessQuestion.options| ==> Bank.CanonicalChoice(ServerlessQuestion.options[i])
  {
    var o := ServerlessQuestion.options;
    forall i | 0 <= i < |o|
      ensures Bank.CanonicalChoice(o[i])
    {
      var t := o[i].text;
      assert |t| < |Answers.Marker|;
      Absent(t, '\n');
    }
  }

  lemma ServerlessCanonical()
    ensures Bank.Canonical(ServerlessQuestion)
  {
    ServerlessPrompt();
    ServerlessChoices();
  }

  /** The bank text is exactly the layout written for the question. */
  lemma ServerlessText()
    ensures Bank.BankText([ServerlessQuestion]) == Serverless
  {
    var q := ServerlessQuestion;
    var o := q.options;
    var l := ServerlessLines;
    assert Answers.FormatLabels("B") == "B";
    assert o[1..][1..] == o[2..] && o[2..][1..] == [];
    assert l[1..][1..] == l[2..] && l[2..][1..] == l[3..] && l[3..][1..] == l[4..] && |l[4..]| == 1;
    assert Bank.Body(o[2..][1..], "B") == l[4] == JoinLines(l[4..]);
    assert Bank.OptionText(o[2]) == l[3];
    assert Bank.Body(o[2..], "B") == JoinLines(l[3..]);
    assert Bank.OptionText(o[1]) == l[2];
    assert Bank.Body(o[1..], "B") == JoinLines(l[2..]);
    assert Bank.OptionText(o[0]) == l[1];
    assert Bank.Body(o, "B") == JoinLines(l[1..]);
    assert "1" + ". " == "1. ";
    assert Bank.HeaderLine(q) == l[0];
    assert Bank.Texts([q]) == [Bank.QuestionText(q)];
  }

  /** The one-question bank parses to one question with three options and
      the single correct label `B`. */
  lemma ServerlessParse()
    ensures Parse(Serverless) == [ServerlessQuestion]
  {
    ServerlessText();
    ServerlessCanonical();
    Bank.ParseBank([ServerlessQuestion]);
  }

  /** The page for a bank that parses to one question: one input per
      option in the question's group, and a one-entry key table. */
  lemma OneQuestionPage(text: String, title: String, q: Question)
    requires Parse(text) == [q]
    ensures var p := Quiz.Convert(text, title);
            && Render.Inputs(Lines(p.questionsHtml)) == Render.ExpectedInputs(q)
            && Quiz.KeyOf(p) == Some(AnswerKey([Render.Key(q.number)], map[Render.Key(q.number) := q.correct]))
  {
    OneQuestionKey(q);
    OneQuestionInputs(q);
    Quiz.ConvertSpec(text, title);
  }

  lemma OneQuestionKey(q: Question)
    ensures Execute(Script.Assignments([q]))
            == AnswerKey([Render.Key(q.number)], map[Render.Key(q.number) := q.correct])
  {
    var a := Script.Assignment(Render.Key(q.number), q.correct);
    assert Script.Assignments([q]) == [a];
    assert [a][..0] == [];
  }

  lemma OneQuestionInputs(q: Question)
    ensures Render.AllExpectedInputs([q]) == Render.ExpectedInputs(q)
  {
    assert [q][1..] == [];
  }

  /** The page for that bank: three radio inputs in group `q1` with values
      `A`, `B`, `C`, and the key table `q1 -> B`. */
  lemma ServerlessPage(title: String)
    ensures var p := Quiz.Convert(Serverless, title);
            && Render.Inputs(Lines(p.questionsHtml))
               == [Render.InputAttrs("radio", "q1", "A"), Render.InputAttrs("radio", "q1", "B"),
                   Render.InputAttrs("radio", "q1", "C")]
            && Quiz.KeyOf(p) == Some(AnswerKey(["q1"], map["q1" := "B"]))
  {
    ServerlessParse();
    OneQuestionPage(Serverless, title, ServerlessQuestion);
    ServerlessInputs();
  }

  lemma ServerlessInputs()
    ensures Render.Key(ServerlessQuestion.number) == "q1"
    ensures Render.ExpectedInputs(ServerlessQuestion)
            == [Render.InputAttrs("radio", "q1", "A"), Render.InputAttrs("radio", "q1", "B"),
                Render.InputAttrs("radio", "q1", "C")]
  {
    assert Render.Key("1") == "q1";
    assert Render.InputType("B") == "radio";
  }
}

=== FILE: grading.dfy ===
/** The grading routine embedded in the quiz page, as a pure function. The
    page's checked inputs become an explicit map from question key to the
    labels selected in that question's group. For every key of the answer
    key, the selected and the correct labels are each sorted and joined;
    the question is correct when the two strings are equal. */
module Grading {
  import opened Text
  import Answers
  import opened AnswerKeys

  predicate Sorted(s: String) {
    forall i, j :: 0 <= i < j < |s| ==> s[i] <= s[j]
  }

  function Insert(c: char, s: String): (r: String)
    requires Sorted(s)
    ensures Sorted(r) && multiset(r) == multiset(s) + multiset{c}
    ensures forall i :: 0 <= i < |r| ==> r[i] == c || r[i] in s
    decreases |s|
  {
    if |s| == 0 || c <= s[0] then
      InsertFront(c, s);
      [c] + s
    else
      SortedTail(s);
      var rest := Insert(c, s[1..]);
      InsertBehind(c, s, rest);
      [s[0]] + rest
  }

  lemma InsertFront(c: char, s: String)
    requires Sorted(s) && (|s| == 0 || c <= s[0])
    ensures Sorted([c] + s)
    ensures forall i :: 0 <= i < |[c] + s| ==> ([c] + s)[i] == c || ([c] + s)[i] in s
  {
    var r := [c] + s;
    assert forall i :: 1 <= i < |r| ==> r[i] == s[i - 1];
  }

  /** Putting the head of `s` in front of `c` inserted into the tail. */
  lemma InsertBehind(c: char, s: String, rest: String)
    requires Sorted(s) && |s| > 0 && s[0] < c
    requires Sorted(rest) && multiset(rest) == multiset(s[1..]) + multiset{c}
    requires forall i :: 0 <= i < |rest| ==> rest[i] == c || rest[i] in s[1..]
    ensures var r := [s[0]] + rest;
            && Sorted(r) && multiset(r) == multiset(s) + multiset{c}
            && forall i :: 0 <= i < |r| ==> r[i] == c || r[i] in s
  {
    var r := [s[0]] + rest;
    assert s == [s[0]] + s[1..];
    forall i | 0 <= i < |rest|
      ensures s[0] <= rest[i]
    {
      if rest[i] != c {
        LeastFirst(s, rest[i]);
      }
    }
    assert forall i :: 1 <= i < |r| ==> r[i] == rest[i - 1];
  }

  /** The first element of an ordered string is its least. */
  lemma LeastFirst(s: String, x: char)
    requires Sorted(s) && x in s
    ensures s[0] <= x
  {
    var i :| 0 <= i < |s| && s[i] == x;
  }

  /** JavaScript's default `sort()` of one-letter strings, which orders them
      by character code: the result is ordered and a permutation of the input. */
  function Sort(s: String): (r: String)
    ensures Sorted(r) && multiset(r) == multiset(s)
    decreases |s|
  {
    if |s| == 0 then []
    else
      assert s == [s[0]] + s[1..];
      Insert(s[0], Sort(s[1..]))
  }

  /** Two ordered strings with the same characters are the same string. */
  lemma {:induction false} SortedUnique(a: String, b: String)
    requires Sorted(a) && Sorted(b) && multiset(a) == multiset(b)
    ensures a == b
    decreases |a|
  {
    assert |a| == |multiset(a)| == |multiset(b)| == |b|;
    if |a| > 0 {
      SameHead(a, b);
      TailMultiset(a);
      TailMultiset(b);
      SortedTail(a);
      SortedTail(b);
      SortedUnique(a[1..], b[1..]);
      assert a == [a[0]] + a[1..];
      assert b == [b[0]] + b[1..];
    }
  }

  /** Two nonempty ordered strings with the same characters share their first. */
  lemma SameHead(a: String, b: String)
    requires Sorted(a) && Sorted(b) && multiset(a) == multiset(b)
    requires |a| > 0 && |b| > 0
    ensures a[0] == b[0]
  {
    assert a[0] in multiset(b);
    LeastFirst(b, a[0]);
    assert b[0] in multiset(a);
    LeastFirst(a, b[0]);
  }

  lemma TailMultiset(s: String)
    requires |s| > 0
    ensures multiset(s[1..]) == multiset(s) - multiset{s[0]}
  {
    assert s == [s[0]] + s[1..];
  }

  lemma SortedTail(s: String)
    requires Sorted(s) && |s| > 0
    ensures Sorted(s[1..])
  {
    assert forall i :: 0 <= i < |s| - 1 ==> s[1..][i] == s[i + 1];
  }

  /** The canonical forms (sorted and joined) of two selections agree exactly
      when one selection is a permutation of the other. */
  lemma CanonicalEqual(x: String, y: String)
    ensures Sort(x) == Sort(y) <==> multiset(x) == multiset(y)
  {
    if multiset(x) == multiset(y) {
      SortedUnique(Sort(x), Sort(y));
    }
  }

  /** The outcome for one question: correct or not, and the text shown. */
  datatype Verdict = Verdict(correct: bool, feedback: String)

  const CorrectText: String := "\U{2705} Correct"
  const IncorrectText: String := "\U{274C} Incorrect. Correct answer(s): "

  /** Compares the canonical forms; on a mismatch the feedback lists the
      correct labels joined with `", "`. */
  function Judge(selected: String, correct: String): (v: Verdict)
    ensures v.correct <==> multiset(selected) == multiset(correct)
    ensures v.correct ==> v.feedback == CorrectText
    ensures !v.correct ==> v.feedback == IncorrectText + Answers.FormatLabels(correct)
  {
    CanonicalEqual(selected, correct);
    if Sort(selected) == Sort(correct) then Verdict(true, CorrectText)
    else Verdict(false, IncorrectText + Answers.FormatLabels(correct))
  }

  /** The labels checked in a question's group; none when the map has no entry. */
  function Selected(sel: map<String, String>, key: String): String {
    if key in sel then sel[key] else ""
  }

  /** Per-key outcomes, the score, and the total shown as `score / total`. */
  datatype Report = Report(verdicts: map<String, Verdict>, score: nat, total: nat)

  /** The outcomes gathered so far and the number of correct ones. */
  datatype Tally = Tally(verdicts: map<String, Verdict>, score: nat)

  /** Walks the keys in order, recording each verdict and counting the correct ones. */
  function GradeKeys(sel: map<String, String>, table: map<String, String>, keys: seq<String>): Tally
    requires forall x :: x in keys ==> x in table
  {
    if |keys| == 0 then Tally(map[], 0)
    else
      var v := Judge(Selected(sel, keys[0]), table[keys[0]]);
      var t := GradeKeys(sel, table, keys[1..]);
      Tally(t.verdicts[keys[0] := v], t.score + if v.correct then 1 else 0)
  }

  /** The routine run on submit. */
  function Grade(sel: map<String, String>, k: AnswerKey): Report
    requires Valid(k)
  {
    var t := GradeKeys(sel, k.table, k.order);
    Report(t.verdicts, t.score, |k.order|)
  }

  /** The keys whose selection is a permutation of their correct labels. */
  function CorrectKeys(sel: map<String, String>, table: map<String, String>): set<String> {
    set key | key in table && multiset(Selected(sel, key)) == multiset(table[key])
  }

  /** Walking duplicate-free keys gives one verdict per key and counts the
      keys whose selection matches. */
  lemma {:induction false} GradeKeysSpec(sel: map<String, String>, table: map<String, String>, keys: seq<String>)
    requires forall x :: x in keys ==> x in table
    requires forall i, j :: 0 <= i < j < |keys| ==> keys[i] != keys[j]
    ensures TallyOf(sel, table, keys, GradeKeys(sel, table, keys))
    decreases |keys|
  {
    if |keys| > 0 {
      assert forall x :: x in keys[1..] ==> x in keys;
      GradeKeysSpec(sel, table, keys[1..]);
      GradeKeysStep(sel, table, keys);
    } else {
      assert (set x | x in keys) == {};
      assert (set x | x in keys && x in CorrectKeys(sel, table)) == {};
    }
  }

  /** What the walk over `keys` yields: a verdict for exactly those keys, each
      the judgement of that key, and the number of keys answered correctly. */
  predicate TallyOf(sel: map<String, String>, table: map<String, String>, keys: seq<String>, t: Tally) {
    && t.verdicts.Keys == (set x | x in keys)
    && Judged(sel, table, t.verdicts)
    && t.score == |set x | x in keys && x in CorrectKeys(sel, table)|
  }

  /** Every recorded verdict is the judgement of its key. */
  predicate Judged(sel: map<String, String>, table: map<String, String>, verdicts: map<String, Verdict>) {
    forall x :: x in verdicts ==> x in table && verdicts[x] == Judge(Selected(sel, x), table[x])
  }

  lemma JudgedUpdate(sel: map<String, String>, table: map<String, String>, verdicts: map<String, Verdict>,
                     key: String, v: Verdict)
    requires Judged(sel, table, verdicts)
    requires key in table && v == Judge(Selected(sel, key), table[key])
    ensures Judged(sel, table, verdicts[key := v])
  {
  }

  lemma GradeKeysStep(sel: map<String, String>, table: map<String, String>, keys: seq<String>)
    requires |keys| > 0
    requires forall x :: x in keys ==> x in table
    requires forall i, j :: 0 <= i < j < |keys| ==> keys[i] != keys[j]
    requires TallyOf(sel, table, keys[1..], GradeKeys(sel, table, keys[1..]))
    ensures TallyOf(sel, table, keys, GradeKeys(sel, table, keys))
  {
    var t := GradeKeys(sel, table, keys[1..]);
    var v := Judge(Selected(sel, keys[0]), table[keys[0]]);
    var r := GradeKeys(sel, table, keys);
    assert r == Tally(t.verdicts[keys[0] := v], t.score + if v.correct then 1 else 0);
    assert r.verdicts.Keys == (set x | x in keys) by {
      Cons(keys);
    }
    JudgedUpdate(sel, table, t.verdicts, keys[0], v);
    assert r.score == |set x | x in keys && x in CorrectKeys(sel, table)| by {
      CountCons(keys, CorrectKeys(sel, table));
      assert v.correct <==> keys[0] in CorrectKeys(sel, table);
    }
  }

  lemma Cons(keys: seq<String>)
    requires |keys| > 0
    ensures (set x | x in keys) == {keys[0]} + set x | x in keys[1..]
  {
    assert keys == [keys[0]] + keys[1..];
  }

  lemma CountCons(keys: seq<String>, good: set<String>)
    requires |keys| > 0
    requires forall i, j :: 0 <= i < j < |keys| ==> keys[i] != keys[j]
    ensures |set x | x in keys && x in good| ==
            |set x | x in keys[1..] && x in good| + if keys[0] in good then 1 else 0
  {
    var tail := keys[1..];
    assert keys == [keys[0]] + tail;
    assert keys[0] !in tail;
    var all := set x | x in keys && x in good;
    var rest := set x | x in tail && x in good;
    if keys[0] in good {
      assert all == rest + {keys[0]};
    } else {
      assert all == rest;
    }
  }

  /** Grading reports one verdict per key of the answer key, each judging
      that key's selection against its correct labels; the total is the
      number of keys; the score is the number of keys whose selection is a
      permutation of their correct labels, so it lies between 0 and the total. */
  lemma GradeSpec(sel: map<String, String>, k: AnswerKey)
    requires Valid(k)
    ensures Grade(sel, k).total == |k.table|
    ensures Grade(sel, k).verdicts.Keys == k.table.Keys
    ensures forall x :: x in k.table ==> Grade(sel, k).verdicts[x] == Judge(Selected(sel, x), k.table[x])
    ensures Grade(sel, k).score == |CorrectKeys(sel, k.table)|
    ensures 0 <= Grade(sel, k).score <= Grade(sel, k).total
  {
    var t := GradeKeys(sel, k.table, k.order);
    assert Grade(sel, k) == Report(t.verdicts, t.score, |k.order|);
    GradeKeysSpec(sel, k.table, k.order);
    ValidCount(k);
    OrderKeys(k);
    CorrectInOrder(sel, k);
    SubsetCard(CorrectKeys(sel, k.table), k.table.Keys);
  }

  lemma CorrectInOrder(sel: map<String, String>, k: AnswerKey)
    requires Valid(k)
    ensures (set x | x in k.order && x in CorrectKeys(sel, k.table)) == CorrectKeys(sel, k.table)
  {
  }

  lemma OrderKeys(k: AnswerKey)
    requires Valid(k)
    ensures (set x | x in k.order) == k.table.Keys
  {
  }

  lemma SubsetCard(a: set<String>, b: set<String>)
    requires a <= b
    ensures |a| <= |b|
  {
    assert b == a + (b - a);
  }

  /** A question whose correct list is empty (no answer line) is graded
      correct exactly when nothing is selected in it. */
  lemma NoAnswerLine(sel: map<String, String>, k: AnswerKey, key: String)
    requires Valid(k) && key in k.table && k.table[key] == ""
    ensures key in Grade(sel, k).verdicts
    ensures Grade(sel, k).verdicts[key].correct <==> Selected(sel, key) == ""
  {
    GradeSpec(sel, k);
    if multiset(Selected(sel, key)) == multiset{} {
      assert |Selected(sel, key)| == 0;
    }
  }

  /** On a wrong selection the feedback names the correct labels in the
      order written, and that list reads back as exactly those labels. */
  lemma FeedbackListsCorrect(selected: String, correct: String)
    requires AllLabels(correct) && |correct| >= 1
    requires multiset(selected) != multiset(correct)
    ensures var f := Judge(selected, correct).feedback;
            && |f| > |IncorrectText|
            && f[..|IncorrectText|] == IncorrectText
            && Answers.LabelList(f[|IncorrectText|..]) == correct
  {
    Answers.LabelListFormat(correct, "");
    var f := Judge(selected, correct).feedback;
    assert Answers.FormatLabels(correct) + "" == Answers.FormatLabels(correct);
    assert f[|IncorrectText|..] == Answers.FormatLabels(correct);
  }

  /** Answering every key with a permutation of its correct labels scores
      every key. */
  lemma FullMarks(sel: map<String, String>, k: AnswerKey)
    requires Valid(k)
    requires forall key :: key in k.table ==> key in sel && multiset(sel[key]) == multiset(k.table[key])
    ensures Grade(sel, k).score == Grade(sel, k).total == |k.table|
  {
    AllCorrect(sel, k.table);
    GradeSpec(sel, k);
  }

  lemma AllCorrect(sel: map<String, String>, table: map<String, String>)
    requires forall key :: key in table ==> key in sel && multiset(sel[key]) == multiset(table[key])
    ensures CorrectKeys(sel, table) == table.Keys
  {
    forall key | key in table
      ensures key in CorrectKeys(sel, table)
    {
      assert Selected(sel, key) == sel[key];
    }
  }
}

=== FILE: header.dfy ===
/** The question header, matched in the source at the start of a block with
    `(\d+)\.\s+(.*?)\n`: the question number (kept as its digit string),
    a full stop, one or more whitespace characters (which may include line
    feeds), and the prompt up to a line feed. */
module Header {
  import opened Text

  /** Positions of one match: number `b[..k]`, full stop `b[k]`,
      whitespace `b[k + 1..t]`, prompt `b[t..r]`, line feed `b[r]`. */
  datatype Span = Span(k: nat, t: nat, r: nat)

  datatype HeaderMatch = HeaderMatch(number: String, prompt: String)

  /** `(k, t, r)` is one way for the header pattern to match at the start of `b`. */
  predicate Valid(b: String, k: int, t: int, r: int) {
    && 1 <= k && k + 1 < t <= r < |b|
    && (forall j :: 0 <= j < k ==> IsDigit(b[j]))
    && b[k] == '.'
    && (forall j :: k + 1 <= j < t ==> IsSpace(b[j]))
    && (forall j :: t <= j < r ==> b[j] != '\n')
    && b[r] == '\n'
  }

  /** The last line feed in `b[lo..hi]`. */
  function LastNewline(b: String, lo: nat, hi: nat): (r: Option<nat>)
    requires lo <= hi <= |b|
    ensures r.Some? ==> lo <= r.value < hi && b[r.value] == '\n'
    ensures r.Some? ==> forall j :: r.value < j < hi ==> b[j] != '\n'
    ensures r.None? ==> forall j :: lo <= j < hi ==> b[j] != '\n'
    decreases hi - lo
  {
    if hi == lo then None
    else if b[hi - 1] == '\n' then Some(hi - 1)
    else LastNewline(b, lo, hi - 1)
  }

  /** The match the backtracking regex engine finds. The digit run is
      forced (a digit is never a full stop). `\s+` first takes the whole
      whitespace run; the lazy `(.*?)\n` then needs a line feed after it.
      When there is none, `\s+` gives back characters one at a time, so the
      match ends at the last line feed inside the run (never the run's
      first character, which `\s+` must keep) and the prompt is empty. */
  function MatchSpan(b: String): Option<Span> {
    var k := DigitRun(b, 0);
    if k == 0 || k == |b| || b[k] != '.' then None
    else
      var q := k + 1 + SpaceRun(b, k + 1);
      if q == k + 1 then None
      else
        var e := NextOf(b, q, '\n');
        if e < |b| then Some(Span(k, q, e))
        else
          match LastNewline(b, k + 2, q)
          case None => None
          case Some(t) => Some(Span(k, t, t))
  }

  /** The number and prompt of the header, if the block has one. */
  function ParseHeader(b: String): Option<HeaderMatch> {
    match MatchSpan(b)
    case None => None
    case Some(sp) => Some(HeaderMatch(b[..sp.k], b[sp.t..sp.r]))
  }

  /** MatchSpan follows the regex semantics: it finds a match exactly when
      one exists, and the one it finds has the longest whitespace run
      (greedy `\s+`) and, for that run, the shortest prompt (lazy `.*?`). */
  lemma MatchSpanIsLeftmostGreedy(b: String)
    ensures MatchSpan(b).None? ==> forall k, t, r :: !Valid(b, k, t, r)
    ensures MatchSpan(b).Some? ==>
              var sp := MatchSpan(b).value;
              && Valid(b, sp.k, sp.t, sp.r)
              && forall k, t, r :: Valid(b, k, t, r) ==> k == sp.k && t <= sp.t && (t == sp.t ==> r == sp.r)
  {
    var k0 := DigitRun(b, 0);
    forall k, t, r | Valid(b, k, t, r)
      ensures k == k0
    {
    }
    if k0 == 0 || k0 == |b| || b[k0] != '.' {
    } else {
      var q := k0 + 1 + SpaceRun(b, k0 + 1);
      forall k, t, r | Valid(b, k, t, r)
        ensures t <= q
      {
      }
      if q == k0 + 1 {
      } else {
        var e := NextOf(b, q, '\n');
        if e < |b| {
          forall k, t, r | Valid(b, k, t, r) && t == q
            ensures r == e
          {
          }
        } else {
          forall k, t, r | Valid(b, k, t, r)
            ensures r < q
          {
          }
        }
      }
    }
  }

  /** A header's number is a non-empty digit string and its prompt holds no line feed. */
  lemma ParseHeaderShape(b: String)
    requires ParseHeader(b).Some?
    ensures var h := ParseHeader(b).value;
            && |h.number| >= 1 && AllDigits(h.number) && NewlineFree(h.prompt)
            && |h.number| < |b| && b[..|h.number|] == h.number && b[|h.number|] == '.'
  {
    MatchSpanIsLeftmostGreedy(b);
  }

  /** A block made of a number, `". "`, a prompt that starts with a
      non-whitespace character, and a line feed reads back as that number
      and prompt. */
  lemma HeaderRoundTrip(number: String, prompt: String, rest: String)
    requires |number| >= 1 && AllDigits(number)
    requires NewlineFree(prompt) && |prompt| >= 1 && !IsSpace(prompt[0])
    ensures ParseHeader(number + ". " + prompt + "\n" + rest) == Some(HeaderMatch(number, prompt))
  {
    var b := number + ". " + prompt + "\n" + rest;
    var k := |number|;
    var t := k + 2;
    var r := t + |prompt|;
    assert b[..k] == number;
    assert b[t..r] == prompt;
    assert forall j :: 0 <= j < k ==> b[j] == number[j];
    assert forall j :: t <= j < r ==> b[j] == prompt[j - t];
    assert Valid(b, k, t, r);
    MatchSpanIsLeftmostGreedy(b);
  }
}

=== FILE: options.dfy ===
/** The option extractor: every non-overlapping match of `-\s([A-E])\.\s(.+)`
    in the whole block, left to right (the source's `re.findall`). The
    pattern is not anchored to the start of a line, `\s` may be a line
    feed, and the greedy `.+` runs to the end of the line. */
module Options {
  import opened Text

  /** One match: it covers `b[start..end]`, carries a label and the option text. */
  datatype OptionMatch = OptionMatch(start: nat, end: nat, letter: char, text: String)

  /** The pattern tried at position `i`. At a fixed position it has at most
      one match: every part but `.+` is a single character, and `.+` takes
      the whole rest of the line. */
  function OptionAt(b: String, i: nat): (r: Option<OptionMatch>)
    requires i <= |b|
    ensures r.Some? ==>
              && r.value.start == i && i + 5 < r.value.end <= |b|
              && b[i] == '-' && IsSpace(b[i + 1]) && b[i + 2] == r.value.letter && IsLabel(r.value.letter)
              && b[i + 3] == '.' && IsSpace(b[i + 4])
              && r.value.text == b[i + 5..r.value.end] && NewlineFree(r.value.text)
              && (r.value.end == |b| || b[r.value.end] == '\n')
    ensures r.None? ==>
              !(i + 5 < |b| && b[i] == '-' && IsSpace(b[i + 1]) && IsLabel(b[i + 2])
                && b[i + 3] == '.' && IsSpace(b[i + 4]) && b[i + 5] != '\n')
  {
    if i + 5 < |b| && b[i] == '-' && IsSpace(b[i + 1]) && IsLabel(b[i + 2])
       && b[i + 3] == '.' && IsSpace(b[i + 4]) && b[i + 5] != '\n'
    then
      var e := NextOf(b, i + 5, '\n');
      Some(OptionMatch(i, e, b[i + 2], b[i + 5..e]))
    else
      None
  }

  /** All matches at or after `i`: scanning resumes at the end of each match. */
  function FindAll(b: String, i: nat): (ms: seq<OptionMatch>)
    requires i <= |b|
    ensures forall j :: 0 <= j < |ms| ==> i <= ms[j].start < |b| && OptionAt(b, ms[j].start) == Some(ms[j])
    ensures forall j :: 0 <= j < |ms| - 1 ==> ms[j].end <= ms[j + 1].start
    decreases |b| - i
  {
    if i == |b| then []
    else
      match OptionAt(b, i)
      case Some(m) => [m] + FindAll(b, m.end)
      case None => FindAll(b, i + 1)
  }

  /** Where the pattern matches, the search reports that match and resumes at its end. */
  lemma FindAllAt(b: String, i: nat)
    requires i < |b| && OptionAt(b, i).Some?
    ensures FindAll(b, i) == [OptionAt(b, i).value] + FindAll(b, OptionAt(b, i).value.end)
  {
  }

  /** Where the pattern does not match, the search moves on by one position. */
  lemma FindAllSkipOne(b: String, i: nat)
    requires i < |b| && OptionAt(b, i).None?
    ensures FindAll(b, i) == FindAll(b, i + 1)
  {
  }

  /** FindAll misses nothing: every position where the pattern matches lies
      inside some reported match (either it starts one, or it was swallowed
      by an earlier match's text). With the ordering in FindAll's contract
      this pins the result down completely (FindAllUnique). */
  lemma {:induction false} FindAllComplete(b: String, i: nat, p: nat)
    requires i <= p < |b| && OptionAt(b, p).Some?
    ensures Covered(FindAll(b, i), p)
    decreases |b| - i
  {
    match OptionAt(b, i)
    case Some(m) =>
      var rest := FindAll(b, m.end);
      assert FindAll(b, i) == [m] + rest;
      if p < m.end {
        CoveredHead(m, rest, p);
      } else {
        FindAllComplete(b, m.end, p);
        CoveredTail(m, rest, p);
      }
    case None =>
      assert FindAll(b, i) == FindAll(b, i + 1);
      if p == i {
        assert false;
      } else {
        FindAllComplete(b, i + 1, p);
      }
  }

  /** Positions where the option pattern cannot match are skipped. */
  lemma {:induction false} FindAllSkip(b: String, i: nat, j: nat)
    requires i <= j <= |b|
    requires forall p :: i <= p < j ==> OptionAt(b, p).None?
    ensures FindAll(b, i) == FindAll(b, j)
    decreases j - i
  {
    if i < j {
      FindAllSkip(b, i + 1, j);
    }
  }

  /** The properties that determine the matches reported from `i` on: real
      matches at or after `i`, in order without overlap, covering every
      position where the pattern matches. */
  predicate ReportsFrom(b: String, i: nat, ms: seq<OptionMatch>)
    requires i <= |b|
  {
    && (forall j :: 0 <= j < |ms| ==> i <= ms[j].start < |b| && OptionAt(b, ms[j].start) == Some(ms[j]))
    && (forall j :: 0 <= j < |ms| - 1 ==> ms[j].end <= ms[j + 1].start)
    && (forall p :: i <= p < |b| && OptionAt(b, p).Some? ==> Covered(ms, p))
  }

  /** FindAll is the only list with those properties: the result of
      `re.findall` is determined by them. */
  lemma {:induction false} FindAllUnique(b: String, i: nat, ms: seq<OptionMatch>)
    requires i <= |b| && ReportsFrom(b, i, ms)
    ensures ms == FindAll(b, i)
    decreases |ms|, 1
  {
    if |ms| == 0 {
      forall p | i <= p < |b|
        ensures OptionAt(b, p).None?
      {
        NothingCovered(ms, p);
      }
      FindAllSkip(b, i, |b|);
    } else {
      FindAllUniqueCons(b, i, ms);
    }
  }

  lemma {:induction false} FindAllUniqueCons(b: String, i: nat, ms: seq<OptionMatch>)
    requires i <= |b| && ReportsFrom(b, i, ms) && |ms| >= 1
    ensures ms == FindAll(b, i)
    decreases |ms|, 0
  {
    UniqueHead(b, i, ms);
    UniqueRest(b, i, ms);
    FindAllUnique(b, ms[0].end, ms[1..]);
    assert ms == [ms[0]] + ms[1..];
  }

  /** The search from `i` reports the first of the matches, then goes on after it. */
  lemma UniqueHead(b: String, i: nat, ms: seq<OptionMatch>)
    requires i <= |b| && ReportsFrom(b, i, ms) && |ms| >= 1
    ensures ms[0].end <= |b| && FindAll(b, i) == [ms[0]] + FindAll(b, ms[0].end)
  {
    var m := ms[0];
    assert forall j :: 0 <= j < |ms| ==> ms[j].start < ms[j].end;
    Increasing(ms);
    forall p | i <= p < m.start
      ensures OptionAt(b, p).None?
    {
      if OptionAt(b, p).Some? {
        assert Covered(ms, p);
        UncoveredBefore(ms, p);
      }
    }
    FindAllSkip(b, i, m.start);
    FindAllAt(b, m.start);
  }

  /** The matches after the first have the same properties from its end on. */
  lemma UniqueRest(b: String, i: nat, ms: seq<OptionMatch>)
    requires i <= |b| && ReportsFrom(b, i, ms) && |ms| >= 1
    ensures ms[0].end <= |b| && ReportsFrom(b, ms[0].end, ms[1..])
  {
    RestStarts(b, i, ms);
    RestOrdered(ms);
    RestCovers(b, i, ms);
  }

  lemma RestStarts(b: String, i: nat, ms: seq<OptionMatch>)
    requires i <= |b| && ReportsFrom(b, i, ms) && |ms| >= 1
    ensures ms[0].end <= |b|
    ensures forall j :: 0 <= j < |ms[1..]| ==>
              ms[0].end <= ms[1..][j].start < |b| && OptionAt(b, ms[1..][j].start) == Some(ms[1..][j])
  {
    assert forall j :: 0 <= j < |ms| ==> ms[j].start < ms[j].end;
    AfterFirst(ms);
  }

  lemma RestOrdered(ms: seq<OptionMatch>)
    requires |ms| >= 1 && forall j :: 0 <= j < |ms| - 1 ==> ms[j].end <= ms[j + 1].start
    ensures forall j :: 0 <= j < |ms[1..]| - 1 ==> ms[1..][j].end <= ms[1..][j + 1].start
  {
    assert forall j :: 0 <= j < |ms[1..]| ==> ms[1..][j] == ms[j + 1];
  }

  lemma RestCovers(b: String, i: nat, ms: seq<OptionMatch>)
    requires i <= |b| && ReportsFrom(b, i, ms) && |ms| >= 1
    ensures forall p :: ms[0].end <= p < |b| && OptionAt(b, p).Some? ==> Covered(ms[1..], p)
  {
    forall p | ms[0].end <= p < |b| && OptionAt(b, p).Some?
      ensures Covered(ms[1..], p)
    {
      CoveredAfterHead(ms, p);
    }
  }

  /** Every later match starts at or after the end of the first. */
  lemma AfterFirst(ms: seq<OptionMatch>)
    requires forall j :: 0 <= j < |ms| ==> ms[j].start < ms[j].end
    requires forall j :: 0 <= j < |ms| - 1 ==> ms[j].end <= ms[j + 1].start
    ensures forall j :: 1 <= j < |ms| ==> ms[0].end <= ms[j].start
  {
    Increasing(ms);
    forall j | 1 <= j < |ms|
      ensures ms[0].end <= ms[j].start
    {
      assert ms[1].start <= ms[j].start;
    }
  }

  lemma NothingCovered(ms: seq<OptionMatch>, p: nat)
    requires |ms| == 0
    ensures !Covered(ms, p)
  {
  }

  /** A position before the first of a list of increasing matches is in none of them. */
  lemma UncoveredBefore(ms: seq<OptionMatch>, p: nat)
    requires |ms| >= 1 && p < ms[0].start
    requires forall j, l :: 0 <= j < l < |ms| ==> ms[j].start < ms[l].start
    ensures !Covered(ms, p)
  {
    forall j | 0 <= j < |ms|
      ensures !(ms[j].start <= p < ms[j].end)
    {
      if j > 0 {
        assert ms[0].start < ms[j].start;
      }
    }
  }

  /** A position at or after the end of the first match is covered by the others. */
  lemma CoveredAfterHead(ms: seq<OptionMatch>, p: nat)
    requires |ms| >= 1 && ms[0].end <= p && Covered(ms, p)
    ensures Covered(ms[1..], p)
  {
    var j :| 0 <= j < |ms| && ms[j].start <= p < ms[j].end;
    if j == 0 {
      assert false;
    } else {
      assert ms[1..][j - 1] == ms[j];
    }
  }

  /** Position `p` lies inside one of the matches. */
  predicate Covered(ms: seq<OptionMatch>, p: nat) {
    exists j :: 0 <= j < |ms| && ms[j].start <= p < ms[j].end
  }

  lemma CoveredHead(m: OptionMatch, rest: seq<OptionMatch>, p: nat)
    requires m.start <= p < m.end
    ensures Covered([m] + rest, p)
  {
    assert ([m] + rest)[0] == m;
  }

  lemma CoveredTail(m: OptionMatch, rest: seq<OptionMatch>, p: nat)
    requires Covered(rest, p)
    ensures Covered([m] + rest, p)
  {
    var j :| 0 <= j < |rest| && rest[j].start <= p < rest[j].end;
    assert ([m] + rest)[j + 1] == rest[j];
  }

  /** The matches come out in order of appearance: starts strictly increase. */
  lemma OrderOfAppearance(b: String, i: nat)
    requires i <= |b|
    ensures forall j, l :: 0 <= j < l < |FindAll(b, i)| ==> FindAll(b, i)[j].start < FindAll(b, i)[l].start
  {
    var ms := FindAll(b, i);
    assert forall j :: 0 <= j < |ms| ==> ms[j].start < ms[j].end;
    Increasing(ms);
  }

  /** Non-empty matches that do not overlap have increasing starts. */
  lemma Increasing(ms: seq<OptionMatch>)
    requires forall j :: 0 <= j < |ms| ==> ms[j].start < ms[j].end
    requires forall j :: 0 <= j < |ms| - 1 ==> ms[j].end <= ms[j + 1].start
    ensures forall j, l :: 0 <= j < l < |ms| ==> ms[j].start < ms[l].start
  {
    forall j, l | 0 <= j < l < |ms|
      ensures ms[j].start < ms[l].start
    {
      var x := j;
      while x < l
        invariant j <= x <= l
        invariant ms[j].start <= ms[x].start
        invariant x > j ==> ms[j].start < ms[x].start
      {
        x := x + 1;
      }
    }
  }

  /** A line `- <label>. <text>` (text non-empty, without line feed) placed
      after a line feed is found as exactly one option, and scanning goes on
      after it. */
  lemma OptionLine(pre: String, letter: char, text: String, post: String)
    requires IsLabel(letter) && |text| >= 1 && NewlineFree(text)
    requires |post| == 0 || post[0] == '\n'
    ensures var b := pre + "- " + [letter] + ". " + text + post;
            OptionAt(b, |pre|) == Some(OptionMatch(|pre|, |b| - |post|, letter, text))
  {
    var b := pre + "- " + [letter] + ". " + text + post;
    var i := |pre|;
    assert b[i + 5..|b| - |post|] == text;
    assert forall j :: i + 5 <= j < |b| - |post| ==> b[j] == text[j - i - 5];
    if |post| > 0 {
      assert b[|b| - |post|] == post[0];
    }
  }
}

=== FILE: questions.dfy ===
/** The question model and the parser that builds it: strip the text,
    split it into blocks, and turn every block that has a header into a
    question. A block without a header is skipped and the rest go on. */
module Questions {
  import opened Text
  import Splitter
  import Header
  import Options
  import Answers

  /** One option: its label (`A`-`E`) and its text. */
  datatype Choice = Choice(letter: char, text: String)

  /** A parsed question. The number is kept as its digit string, so `"01"`
      and `"1"` are different questions. */
  datatype Question = Question(number: String, prompt: String, options: seq<Choice>, correct: String)

  /** What every parsed question satisfies. */
  predicate WellFormed(q: Question) {
    && |q.number| >= 1 && AllDigits(q.number)
    && NewlineFree(q.prompt)
    && (forall i :: 0 <= i < |q.options| ==>
          IsLabel(q.options[i].letter) && |q.options[i].text| >= 1 && NewlineFree(q.options[i].text))
    && AllLabels(q.correct)
  }

  function Choices(ms: seq<Options.OptionMatch>): (cs: seq<Choice>)
    ensures |cs| == |ms|
    ensures forall i :: 0 <= i < |ms| ==> cs[i] == Choice(ms[i].letter, ms[i].text)
  {
    seq(|ms|, i requires 0 <= i < |ms| => Choice(ms[i].letter, ms[i].text))
  }

  /** One block: nothing unless it has a header; otherwise its number and
      prompt, every option found anywhere in the block, and the first
      correct-answer list. */
  function ParseBlock(b: String): Option<Question> {
    match Header.ParseHeader(b)
    case None => None
    case Some(h) => Some(Question(h.number, h.prompt, Choices(Options.FindAll(b, 0)), Answers.CorrectAnswers(b)))
  }

  function ParseBlocks(bs: seq<String>): seq<Question> {
    if |bs| == 0 then []
    else
      match ParseBlock(bs[0])
      case None => ParseBlocks(bs[1..])
      case Some(q) => [q] + ParseBlocks(bs[1..])
  }

  /** The questions of a question bank, in order of appearance. */
  function Parse(text: String): seq<Question> {
    ParseBlocks(Splitter.Split(Strip(text)))
  }

  /** A block is skipped exactly when the header pattern cannot match it;
      a block that is kept gives a well-formed question whose options are
      the option matches of the block in order and whose answers are the
      block's correct-answer list. */
  lemma ParseBlockSpec(b: String)
    ensures ParseBlock(b).None? <==> forall k, t, r :: !Header.Valid(b, k, t, r)
    ensures ParseBlock(b).Some? ==>
              var q := ParseBlock(b).value;
              && WellFormed(q)
              && |q.options| == |Options.FindAll(b, 0)|
              && (forall i :: 0 <= i < |q.options| ==>
                    q.options[i].letter == Options.FindAll(b, 0)[i].letter
                    && q.options[i].text == Options.FindAll(b, 0)[i].text)
              && q.correct == Answers.CorrectAnswers(b)
  {
    Header.MatchSpanIsLeftmostGreedy(b);
    Answers.CorrectAnswersSpec(b);
    if ParseBlock(b).Some? {
      Header.ParseHeaderShape(b);
    }
  }

  /** Blocks are processed independently: the questions of two runs of
      blocks are the questions of each run, one after the other. */
  lemma {:induction false} ParseBlocksAppend(a: seq<String>, c: seq<String>)
    ensures ParseBlocks(a + c) == ParseBlocks(a) + ParseBlocks(c)
    decreases |a|
  {
    if |a| == 0 {
      assert a + c == c;
    } else {
      assert (a + c)[0] == a[0];
      assert (a + c)[1..] == a[1..] + c;
      ParseBlocksAppend(a[1..], c);
    }
  }

  /** A block without a header contributes nothing, and the blocks after it
      are still processed. */
  lemma SkipMalformed(a: seq<String>, bad: String, c: seq<String>)
    requires forall k, t, r :: !Header.Valid(bad, k, t, r)
    ensures ParseBlocks(a + [bad] + c) == ParseBlocks(a) + ParseBlocks(c)
  {
    ParseBlockSpec(bad);
    ParseBlocksAppend(a + [bad], c);
    ParseBlocksAppend(a, [bad]);
    ParseOne(bad);
  }

  /** Indices of the blocks that have a header. */
  function Headed(bs: seq<String>): set<nat> {
    set i: nat | i < |bs| && ParseBlock(bs[i]).Some?
  }

  /** There is one question per block with a header. */
  lemma {:induction false} CountIsHeaded(bs: seq<String>)
    ensures |ParseBlocks(bs)| == |Headed(bs)|
    decreases |bs|
  {
    if |bs| > 0 {
      var n := |bs| - 1;
      var pre := bs[..n];
      var last := bs[n];
      assert bs == pre + [last];
      ParseBlocksAppend(pre, [last]);
      CountIsHeaded(pre);
      HeadedSnoc(pre, last);
      ParseOne(last);
    } else {
      assert Headed(bs) == {};
    }
  }

  lemma HeadedSnoc(pre: seq<String>, last: String)
    ensures Headed(pre + [last]) == Headed(pre) + (if ParseBlock(last).Some? then {|pre|} else {})
    ensures |pre| !in Headed(pre)
  {
    var bs := pre + [last];
    var extra: set<nat> := if ParseBlock(last).Some? then {|pre|} else {};
    forall i: nat | i in Headed(bs)
      ensures i in Headed(pre) + extra
    {
      if i < |pre| {
        assert bs[i] == pre[i];
      } else {
        assert bs[i] == last;
      }
    }
    forall i: nat | i in Headed(pre) + extra
      ensures i in Headed(bs)
    {
      if i < |pre| {
        assert bs[i] == pre[i];
      } else {
        assert bs[i] == last;
      }
    }
  }

  lemma ParseOne(b: String)
    ensures |ParseBlocks([b])| == if ParseBlock(b).Some? then 1 else 0
  {
    assert [b][1..] == [];
  }

  /** Every question the parser returns is well formed. */
  lemma {:induction false} ParseBlocksWellFormed(bs: seq<String>)
    ensures forall i :: 0 <= i < |ParseBlocks(bs)| ==> WellFormed(ParseBlocks(bs)[i])
    decreases |bs|
  {
    if |bs| > 0 {
      ParseBlockSpec(bs[0]);
      ParseBlocksWellFormed(bs[1..]);
    }
  }
}

=== FILE: quiz.dfy ===
/** The whole conversion: a question bank's text and a title become a quiz
    page, and the page's script builds the key table its grading routine
    reads. The page is reduced to the three parts that vary; the fixed
    document shell, style sheet and button around them are left out. */
module Quiz {
  import opened Text
  import opened Questions
  import Render
  import Script
  import opened AnswerKeys
  import opened Grading
  import Bank

  /** A generated page: its title, the question markup and the answer-key script. */
  datatype Page = Page(title: String, questionsHtml: String, scoreScript: String)

  /** Parse the text, then emit every question's markup and answer-key line. */
  function Convert(text: String, title: String): Page {
    var qs := Parse(text);
    Page(title, Render.QuestionsHtml(qs), Script.ScoreScript(qs))
  }

  /** The title a page gets when the caller passes none. */
  const DefaultTitle: String := "AWS Practice Exam"

  /** The conversion called with the text alone. */
  function ConvertUntitled(text: String): Page {
    Convert(text, DefaultTitle)
  }

  /** The key table the page's script builds when it runs, if it reads as
      a script at all. */
  function KeyOf(p: Page): (k: Option<AnswerKey>)
    ensures k.Some? ==> Valid(k.value)
  {
    match Script.ReadScript(p.scoreScript)
    case None => None
    case Some(assigns) => Some(Execute(assigns))
  }

  /** The question numbers of a parsed bank. */
  function Numbers(qs: seq<Question>): set<String> {
    set i | 0 <= i < |qs| :: qs[i].number
  }

  /** The page holds one input per option of every parsed question, in
      order, each in its question's group; its script builds, from an empty
      table, the key table of the parsed questions' assignments; that table
      has one key per distinct question number. */
  lemma ConvertSpec(text: String, title: String)
    ensures var p := Convert(text, title);
            && p.title == title
            && Render.Inputs(Lines(p.questionsHtml)) == Render.AllExpectedInputs(Parse(text))
            && KeyOf(p) == Some(Execute(Script.Assignments(Parse(text))))
            && |KeyOf(p).value.table| == |Numbers(Parse(text))|
  {
    var qs := Parse(text);
    ParseBlocksWellFormed(Splitter.Split(Strip(text)));
    Render.QuestionsHtmlInputs(qs);
    Script.ScriptRoundTrip(qs);
    KeyCount(qs);
  }

  /** The grading routine's total is the number of distinct question
      numbers: a repeated number overwrites its entry instead of adding one. */
  lemma {:induction false} KeyCount(qs: seq<Question>)
    ensures |Execute(Script.Assignments(qs)).table| == |Numbers(qs)|
  {
    var assigns := Script.Assignments(qs);
    var keys := Execute(assigns).table.Keys;
    assert keys == set n | n in Numbers(qs) :: Render.Key(n) by {
      forall x | x in keys
        ensures x in set n | n in Numbers(qs) :: Render.Key(n)
      {
        var i :| 0 <= i < |assigns| && assigns[i].key == x;
        assert qs[i].number in Numbers(qs);
      }
      forall x | x in set n | n in Numbers(qs) :: Render.Key(n)
        ensures x in keys
      {
        var n :| n in Numbers(qs) && x == Render.Key(n);
        var i :| 0 <= i < |qs| && qs[i].number == n;
        assert assigns[i].key == x;
      }
    }
    KeyImage(Numbers(qs));
  }

  /** Distinct numbers give distinct keys. */
  lemma KeyInjective(a: String, b: String)
    requires Render.Key(a) == Render.Key(b)
    ensures a == b
  {
    assert a == Render.Key(a)[1..];
    assert b == Render.Key(b)[1..];
  }

  lemma {:induction false} KeyImage(ns: set<String>)
    ensures |set n | n in ns :: Render.Key(n)| == |ns|
    decreases ns
  {
    if ns != {} {
      var x :| x in ns;
      var rest := ns - {x};
      KeyImage(rest);
      var img := set n | n in ns :: Render.Key(n);
      var imgRest := set n | n in rest :: Render.Key(n);
      assert img == imgRest + {Render.Key(x)};
      assert Render.Key(x) !in imgRest by {
        forall n | n in rest
          ensures Render.Key(n) != Render.Key(x)
        {
          if Render.Key(n) == Render.Key(x) {
            KeyInjective(n, x);
          }
        }
      }
    } else {
      assert (set n | n in ns :: Render.Key(n)) == {};
    }
  }

  /** The key of a question that no later question repeats holds that
      question's correct labels. */
  lemma LastQuestionWins(qs: seq<Question>, i: nat)
    requires i < |qs|
    requires forall j :: i < j < |qs| ==> qs[j].number != qs[i].number
    ensures var k := Execute(Script.Assignments(qs));
            && Render.Key(qs[i].number) in k.table
            && k.table[Render.Key(qs[i].number)] == qs[i].correct
  {
    var assigns := Script.Assignments(qs);
    forall j | i < j < |assigns|
      ensures assigns[j].key != assigns[i].key
    {
      if assigns[j].key == assigns[i].key {
        KeyInjective(qs[j].number, qs[i].number);
      }
    }
    ExecuteLastWins(assigns, i);
  }

  /** Grading the page: when every question is answered with a permutation
      of its correct labels, every distinct question scores. */
  lemma PageFullMarks(text: String, title: String, sel: map<String, String>)
    requires var k := Execute(Script.Assignments(Parse(text)));
             forall key :: key in k.table ==> key in sel && multiset(sel[key]) == multiset(k.table[key])
    ensures KeyOf(Convert(text, title)).Some?
    ensures var r := Grade(sel, KeyOf(Convert(text, title)).value);
            r.score == r.total == |Numbers(Parse(text))|
  {
    ConvertSpec(text, title);
    var k := Execute(Script.Assignments(Parse(text)));
    assert KeyOf(Convert(text, title)).value == k;
    FullMarks(sel, k);
    ValidCount(k);
  }

  /** Converting a bank written in the authors' layout gives a page whose
      inputs and key table are exactly those of the questions it was
      written from. */
  lemma ConvertBank(qs: seq<Question>, title: String)
    requires forall i :: 0 <= i < |qs| ==> Bank.Canonical(qs[i])
    ensures var p := Convert(Bank.BankText(qs), title);
            && Render.Inputs(Lines(p.questionsHtml)) == Render.AllExpectedInputs(qs)
            && KeyOf(p) == Some(Execute(Script.Assignments(qs)))
  {
    Bank.ParseBank(qs);
    ConvertSpec(Bank.BankText(qs), title);
  }
}

=== FILE: render.dfy ===
/** The per-question markup. Each question becomes a container line, one
    input line per option, a feedback placeholder and a closing line.
    Prompt and option text are embedded as they are, without escaping.
    The reader functions below play the part of the browser: they take an
    emitted line apart again to recover the attributes of its input. */
module Render {
  import opened Text
  import opened Questions

  /** The identifier of a question: grading key, input group name and
      feedback anchor prefix. */
  function Key(number: String): String {
    "q" + number
  }

  /** Checkboxes for more than one correct label, radio buttons otherwise
      (also when the question has no correct answers). */
  function InputType(correct: String): String {
    if |correct| > 1 then "checkbox" else "radio"
  }

  function OpenLine(q: Question): String {
    "<div class='question' id='" + Key(q.number) + "-container'><p><strong>" + q.number + ". " + q.prompt + "</strong></p>"
  }

  function InputLine(kind: String, key: String, c: Choice): String {
    InputOpen + (kind + (NameSep + (key + (ValueSep + ([c.letter] + (TagClose + LabelTail(c)))))))
  }

  /** What follows an input tag: the label again and the option text. */
  function LabelTail(c: Choice): String {
    " " + [c.letter] + ". " + c.text + "</label><br>"
  }

  function FeedbackLine(key: String): String {
    "<p id='" + key + "-feedback' class='feedback'></p>"
  }

  const CloseLine: String := "</div><br>"

  function InputLines(q: Question): seq<String> {
    seq(|q.options|, i requires 0 <= i < |q.options| => InputLine(InputType(q.correct), Key(q.number), q.options[i]))
  }

  function FragmentLines(q: Question): seq<String> {
    [OpenLine(q)] + InputLines(q) + [FeedbackLine(Key(q.number)), CloseLine]
  }

  /** The markup of one question; every line ends with a line feed. */
  function Fragment(q: Question): String {
    Unlines(FragmentLines(q))
  }

  /** The markup of all questions, in order. */
  function QuestionsHtml(qs: seq<Question>): String {
    if |qs| == 0 then "" else Fragment(qs[0]) + QuestionsHtml(qs[1..])
  }

  /** The three attributes a browser reads from an option's input tag. */
  datatype InputAttrs = InputAttrs(kind: String, name: String, value: String)

  const InputOpen: String := "<label><input type='"
  const NameSep: String := "' name='"
  const ValueSep: String := "' value='"
  const TagClose: String := "'>"

  /** The attributes of a line that begins with an option's input tag. */
  function ReadInput(l: String): Option<InputAttrs> {
    if !StartsWith(l, InputOpen) then None
    else
      var (kind, r1) := TakeField(l[|InputOpen|..]);
      if !StartsWith(r1, NameSep) then None
      else
        var (name, r2) := TakeField(r1[|NameSep|..]);
        if !StartsWith(r2, ValueSep) then None
        else
          var (value, r3) := TakeField(r2[|ValueSep|..]);
          if !StartsWith(r3, TagClose) then None
          else Some(InputAttrs(kind, name, value))
  }

  /** The inputs among some lines, in order. */
  function Inputs(ls: seq<String>): seq<InputAttrs> {
    if |ls| == 0 then []
    else
      match ReadInput(ls[0])
      case None => Inputs(ls[1..])
      case Some(a) => [a] + Inputs(ls[1..])
  }

  /** An emitted input line reads back as its type, group name and label,
      whatever the option text: the three attributes come before the text
      and none of them can hold a quote. */
  lemma ReadInputLine(kind: String, key: String, c: Choice)
    requires QuoteFree(kind) && QuoteFree(key) && c.letter != '\''
    ensures ReadInput(InputLine(kind, key, c)) == Some(InputAttrs(kind, key, [c.letter]))
  {
    var v := [c.letter];
    var r3 := TagClose + LabelTail(c);
    var r2 := ValueSep + (v + r3);
    var r1 := NameSep + (key + r2);
    var l := InputOpen + (kind + r1);
    DropPrefix(InputOpen, kind + r1);
    TakeQuoteFree(kind, r1);
    DropPrefix(NameSep, key + r2);
    TakeQuoteFree(key, r2);
    DropPrefix(ValueSep, v + r3);
    TakeQuoteFree(v, r3);
    DropPrefix(TagClose, LabelTail(c));
  }

  /** The inputs a question should have: one per option, in order, all in
      the question's group, each carrying its label as value, with the type
      chosen by the number of correct labels. Stated without any markup. */
  function ExpectedInputs(q: Question): seq<InputAttrs> {
    seq(|q.options|, i requires 0 <= i < |q.options| => InputAttrs(InputType(q.correct), Key(q.number), [q.options[i].letter]))
  }

  /** Every input of a question is a checkbox exactly when more than one
      label is correct, and a radio button otherwise, also when the question
      has no answer line. */
  lemma ControlKind(q: Question)
    ensures forall i :: 0 <= i < |ExpectedInputs(q)| ==>
              && (ExpectedInputs(q)[i].kind == "checkbox" <==> |q.correct| > 1)
              && (ExpectedInputs(q)[i].kind == "radio" <==> |q.correct| <= 1)
  {
  }

  function AllExpectedInputs(qs: seq<Question>): seq<InputAttrs> {
    if |qs| == 0 then [] else ExpectedInputs(qs[0]) + AllExpectedInputs(qs[1..])
  }

  lemma {:induction false} InputsAppend(a: seq<String>, b: seq<String>)
    ensures Inputs(a + b) == Inputs(a) + Inputs(b)
    decreases |a|
  {
    if |a| == 0 {
      assert a + b == b;
    } else {
      assert (a + b)[0] == a[0];
      assert (a + b)[1..] == a[1..] + b;
      InputsAppend(a[1..], b);
    }
  }

  lemma {:induction false} InputsOfInputLines(ls: seq<String>, attrs: seq<InputAttrs>)
    requires |ls| == |attrs|
    requires forall i :: 0 <= i < |ls| ==> ReadInput(ls[i]) == Some(attrs[i])
    ensures Inputs(ls) == attrs
    decreases |ls|
  {
    if |ls| > 0 {
      InputsOfInputLines(ls[1..], attrs[1..]);
      assert attrs == [attrs[0]] + attrs[1..];
    }
  }

  lemma KeyShape(number: String)
    requires AllDigits(number)
    ensures QuoteFree(Key(number)) && NewlineFree(Key(number))
  {
    assert forall j :: 1 <= j < |Key(number)| ==> Key(number)[j] == number[j - 1];
  }

  /** The lines of a well-formed question's markup hold no line feed, so the
      markup reads back line by line. */
  lemma FragmentLinesNewlineFree(q: Question)
    requires WellFormed(q)
    ensures forall i :: 0 <= i < |FragmentLines(q)| ==> NewlineFree(FragmentLines(q)[i])
  {
    var key := Key(q.number);
    KeyShape(q.number);
    assert NewlineFree(q.number);
    var o := OpenLine(q);
    NewlineFreeConcat("<div class='question' id='", key);
    NewlineFreeConcat("<div class='question' id='" + key, "-container'><p><strong>");
    NewlineFreeConcat("<div class='question' id='" + key + "-container'><p><strong>", q.number);
    NewlineFreeConcat("<div class='question' id='" + key + "-container'><p><strong>" + q.number, ". ");
    NewlineFreeConcat("<div class='question' id='" + key + "-container'><p><strong>" + q.number + ". ", q.prompt);
    NewlineFreeConcat("<div class='question' id='" + key + "-container'><p><strong>" + q.number + ". " + q.prompt, "</strong></p>");
    NewlineFreeConcat("<p id='", key);
    NewlineFreeConcat("<p id='" + key, "-feedback' class='feedback'></p>");
    forall i | 0 <= i < |q.options|
      ensures NewlineFree(InputLines(q)[i])
    {
      InputLineNewlineFree(InputType(q.correct), key, q.options[i]);
    }
    var ls := FragmentLines(q);
    assert forall i :: 1 <= i < |ls| - 2 ==> ls[i] == InputLines(q)[i - 1];
  }

  lemma InputLineNewlineFree(kind: String, key: String, c: Choice)
    requires NewlineFree(kind) && NewlineFree(key) && NewlineFree(c.text) && c.letter != '\n'
    ensures NewlineFree(InputLine(kind, key, c))
  {
    var v := [c.letter];
    NewlineFreeConcat(" ", v);
    NewlineFreeConcat(" " + v, ". ");
    NewlineFreeConcat(" " + v + ". ", c.text);
    NewlineFreeConcat(" " + v + ". " + c.text, "</label><br>");
    NewlineFreeConcat(TagClose, LabelTail(c));
    NewlineFreeConcat(v, TagClose + LabelTail(c));
    NewlineFreeConcat(ValueSep, v + (TagClose + LabelTail(c)));
    NewlineFreeConcat(key, ValueSep + (v + (TagClose + LabelTail(c))));
    NewlineFreeConcat(NameSep, key + (ValueSep + (v + (TagClose + LabelTail(c)))));
    NewlineFreeConcat(kind, NameSep + (key + (ValueSep + (v + (TagClose + LabelTail(c))))));
    NewlineFreeConcat(InputOpen, kind + (NameSep + (key + (ValueSep + (v + (TagClose + LabelTail(c)))))));
  }

  /** A question's markup carries exactly one input per option, in order,
      named after the question and valued with the option's label, of type
      `checkbox` exactly when more than one label is correct; its other lines
      (container, feedback placeholder, closing tag) carry none. */
  lemma FragmentInputs(q: Question)
    requires WellFormed(q)
    ensures Lines(Fragment(q)) == FragmentLines(q)
    ensures Inputs(FragmentLines(q)) == ExpectedInputs(q)
  {
    FragmentLinesNewlineFree(q);
    LinesUnlines(FragmentLines(q));
    InputLinesRead(q);
    var o := OpenLine(q);
    var closing := [FeedbackLine(Key(q.number)), CloseLine];
    OtherLinesCarryNoInput(q);
    InputsAppend([o], InputLines(q));
    InputsAppend([o] + InputLines(q), closing);
  }

  lemma InputLinesRead(q: Question)
    requires WellFormed(q)
    ensures Inputs(InputLines(q)) == ExpectedInputs(q)
  {
    var key := Key(q.number);
    KeyShape(q.number);
    var kind := InputType(q.correct);
    forall i | 0 <= i < |q.options|
      ensures ReadInput(InputLines(q)[i]) == Some(ExpectedInputs(q)[i])
    {
      ReadInputLine(kind, key, q.options[i]);
    }
    InputsOfInputLines(InputLines(q), ExpectedInputs(q));
  }

  lemma OtherLinesCarryNoInput(q: Question)
    ensures Inputs([OpenLine(q)]) == []
    ensures Inputs([FeedbackLine(Key(q.number)), CloseLine]) == []
  {
    var o := OpenLine(q);
    var f := FeedbackLine(Key(q.number));
    SecondChar("<div class='question' id='", o);
    SecondChar("<p id='", f);
    NotInputLine(o);
    NotInputLine(f);
    NotInputLine(CloseLine);
    assert [f, CloseLine][1..] == [CloseLine];
    assert [CloseLine][1..] == [];
    assert Inputs([CloseLine]) == [];
  }

  lemma SecondChar(w: String, s: String)
    requires |w| >= 2 && StartsWith(s, w)
    ensures s[1] == w[1]
  {
    assert s[..|w|][1] == s[1];
  }

  /** A line whose second character is not that of `<label>` carries no input. */
  lemma NotInputLine(l: String)
    requires |l| >= 2 && l[1] != 'l'
    ensures ReadInput(l).None?
  {
    assert !StartsWith(l, InputOpen) by {
      if |InputOpen| <= |l| {
        assert l[..|InputOpen|][1] == l[1];
        assert InputOpen[1] == 'l';
      }
    }
  }

  /** The markup of a sequence of questions is their fragments' lines, one
      after the other. */
  function AllLines(qs: seq<Question>): seq<String> {
    if |qs| == 0 then [] else FragmentLines(qs[0]) + AllLines(qs[1..])
  }

  /** Over the whole question list, the inputs read back from the markup are
      exactly the expected inputs of each question in turn. */
  lemma {:induction false} QuestionsHtmlInputs(qs: seq<Question>)
    requires forall i :: 0 <= i < |qs| ==> WellFormed(qs[i])
    ensures QuestionsHtml(qs) == Unlines(AllLines(qs))
    ensures Lines(QuestionsHtml(qs)) == AllLines(qs)
    ensures Inputs(Lines(QuestionsHtml(qs))) == AllExpectedInputs(qs)
    decreases |qs|
  {
    if |qs| > 0 {
      QuestionsHtmlInputs(qs[1..]);
      FragmentInputs(qs[0]);
      UnlinesAppend(FragmentLines(qs[0]), AllLines(qs[1..]));
      InputsAppend(FragmentLines(qs[0]), AllLines(qs[1..]));
      AllLinesNewlineFree(qs);
      LinesUnlines(AllLines(qs));
    }
  }

  lemma {:induction false} AllLinesNewlineFree(qs: seq<Question>)
    requires forall i :: 0 <= i < |qs| ==> WellFormed(qs[i])
    ensures forall i :: 0 <= i < |AllLines(qs)| ==> NewlineFree(AllLines(qs)[i])
    decreases |qs|
  {
    if |qs| > 0 {
      FragmentLinesNewlineFree(qs[0]);
      AllLinesNewlineFree(qs[1..]);
      AllNewlineFree(FragmentLines(qs[0]), AllLines(qs[1..]));
    }
  }

  lemma AllNewlineFree(a: seq<String>, b: seq<String>)
    requires forall i :: 0 <= i < |a| ==> NewlineFree(a[i])
    requires forall i :: 0 <= i < |b| ==> NewlineFree(b[i])
    ensures forall i :: 0 <= i < |a + b| ==> NewlineFree((a + b)[i])
  {
    forall i | 0 <= i < |a + b|
      ensures NewlineFree((a + b)[i])
    {
      if i >= |a| {
        assert (a + b)[i] == b[i - |a|];
      }
    }
  }
}

=== FILE: script.dfy ===
/** The answer-key script: one assignment line per question,
    `answers['q<n>'] = ['A', 'C'];`, after a line declaring the empty key
    table. Running the assignments in order gives the key the grading
    routine reads; a repeated question number overwrites the earlier entry
    and keeps its original place. */
module Script {
  import opened Text
  import opened Questions
  import Render

  /** One assignment of the script: a key and its list of correct labels. */
  datatype Assignment = Assignment(key: String, labels: String)

  const ScriptHead: String := "const answers = {}"
  const KeyOpen: String := "answers['"
  const KeyMid: String := "'] = ["
  const KeyClose: String := "];"
  const ItemSep: String := ", "

  /** A label as Python prints a one-letter string: in single quotes. */
  function Quoted(c: char): String {
    ['\'', c, '\'']
  }

  /** The items of Python's printed form of a list of one-letter strings. */
  function PyItems(cs: String): String {
    if |cs| == 0 then ""
    else if |cs| == 1 then Quoted(cs[0])
    else Quoted(cs[0]) + (ItemSep + PyItems(cs[1..]))
  }

  /** `answers['<key>'] = [<items>];` */
  function KeyLine(a: Assignment): String {
    KeyOpen + (a.key + (KeyMid + (PyItems(a.labels) + KeyClose)))
  }

  /** The assignment each question contributes. */
  function Assignments(qs: seq<Question>): seq<Assignment> {
    seq(|qs|, i requires 0 <= i < |qs| => Assignment(Render.Key(qs[i].number), qs[i].correct))
  }

  function KeyLines(assigns: seq<Assignment>): seq<String> {
    seq(|assigns|, i requires 0 <= i < |assigns| => KeyLine(assigns[i]))
  }

  /** The script text for a list of questions. */
  function ScoreScript(qs: seq<Question>): String {
    Unlines([ScriptHead] + KeyLines(Assignments(qs)))
  }

  /** Reads a non-empty item list up to and including the closing `];`. */
  function ReadItems(t: String): Option<String>
    decreases |t|
  {
    if |t| >= 3 && t[0] == '\'' && t[2] == '\'' then
      var rest := t[3..];
      if rest == KeyClose then Some([t[1]])
      else if StartsWith(rest, ItemSep) then
        match ReadItems(rest[|ItemSep|..])
        case None => None
        case Some(cs) => Some([t[1]] + cs)
      else None
    else None
  }

  /** Reads an item list, possibly empty, and the closing `];`. */
  function ReadList(t: String): Option<String> {
    if t == KeyClose then Some("") else ReadItems(t)
  }

  /** The assignment an answer-key line makes, as the script engine reads it. */
  function ReadKeyLine(l: String): Option<Assignment> {
    if !StartsWith(l, KeyOpen) then None
    else
      var (key, r) := TakeField(l[|KeyOpen|..]);
      if !StartsWith(r, KeyMid) then None
      else
        match ReadList(r[|KeyMid|..])
        case None => None
        case Some(cs) => Some(Assignment(key, cs))
  }

  function ReadAssignments(ls: seq<String>): Option<seq<Assignment>> {
    if |ls| == 0 then Some([])
    else
      match ReadKeyLine(ls[0])
      case None => None
      case Some(a) =>
        match ReadAssignments(ls[1..])
        case None => None
        case Some(rest) => Some([a] + rest)
  }

  /** The assignments a script makes: a head line, then one assignment per line. */
  function ReadScript(s: String): Option<seq<Assignment>> {
    var ls := Lines(s);
    if |ls| == 0 || ls[0] != ScriptHead then None else ReadAssignments(ls[1..])
  }

  lemma {:induction false} ReadItemsFormat(cs: String)
    requires |cs| >= 1
    ensures ReadItems(PyItems(cs) + KeyClose) == Some(cs)
    decreases |cs|
  {
    var t := PyItems(cs) + KeyClose;
    if |cs| == 1 {
      assert t == Quoted(cs[0]) + KeyClose;
      assert t[0] == '\'' && t[1] == cs[0] && t[2] == '\'';
      assert t[3..] == KeyClose;
      assert cs == [cs[0]];
    } else {
      var inner := PyItems(cs[1..]) + KeyClose;
      assert t == Quoted(cs[0]) + (ItemSep + inner);
      assert t[3..] == ItemSep + inner;
      DropPrefix(ItemSep, inner);
      assert t[3..] != KeyClose by {
        assert t[3..][0] == ',';
      }
      ReadItemsFormat(cs[1..]);
      assert cs == [cs[0]] + cs[1..];
    }
  }

  /** An answer-key line reads back as the assignment it was written for:
      the key cannot hold a quote, and each label is printed at a fixed
      width, so the literal is unambiguous. */
  lemma ReadKeyLineRoundTrip(a: Assignment)
    requires QuoteFree(a.key)
    ensures ReadKeyLine(KeyLine(a)) == Some(a)
  {
    var r := KeyMid + (PyItems(a.labels) + KeyClose);
    DropPrefix(KeyOpen, a.key + r);
    TakeQuoteFree(a.key, r);
    DropPrefix(KeyMid, PyItems(a.labels) + KeyClose);
    if |a.labels| == 0 {
      assert PyItems(a.labels) + KeyClose == KeyClose;
    } else {
      ReadItemsFormat(a.labels);
      assert PyItems(a.labels) + KeyClose != KeyClose by {
        assert PyItems(a.labels)[0] == '\'';
      }
    }
  }

  lemma {:induction false} ReadAssignmentsLines(assigns: seq<Assignment>)
    requires forall i :: 0 <= i < |assigns| ==> QuoteFree(assigns[i].key)
    ensures ReadAssignments(KeyLines(assigns)) == Some(assigns)
    decreases |assigns|
  {
    if |assigns| > 0 {
      var tail := assigns[1..];
      KeyLinesCons(assigns);
      ReadKeyLineRoundTrip(assigns[0]);
      ReadAssignmentsLines(tail);
      ReadAssignmentsCons(KeyLine(assigns[0]), KeyLines(tail), assigns[0], tail);
      assert assigns == [assigns[0]] + tail;
    } else {
      assert KeyLines(assigns) == [];
    }
  }

  lemma KeyLinesCons(assigns: seq<Assignment>)
    requires |assigns| > 0
    ensures KeyLines(assigns) == [KeyLine(assigns[0])] + KeyLines(assigns[1..])
  {
  }

  lemma ReadAssignmentsCons(l: String, ls: seq<String>, a: Assignment, rest: seq<Assignment>)
    requires ReadKeyLine(l) == Some(a) && ReadAssignments(ls) == Some(rest)
    ensures ReadAssignments([l] + ls) == Some([a] + rest)
  {
    assert ([l] + ls)[1..] == ls;
  }

  lemma NewlineFreeKeyLine(a: Assignment)
    requires NewlineFree(a.key) && NewlineFree(a.labels)
    ensures NewlineFree(KeyLine(a))
  {
    NewlineFreeItems(a.labels);
    NewlineFreeConcat(PyItems(a.labels), KeyClose);
    NewlineFreeConcat(KeyMid, PyItems(a.labels) + KeyClose);
    NewlineFreeConcat(a.key, KeyMid + (PyItems(a.labels) + KeyClose));
    NewlineFreeConcat(KeyOpen, a.key + (KeyMid + (PyItems(a.labels) + KeyClose)));
  }

  lemma {:induction false} NewlineFreeItems(cs: String)
    requires NewlineFree(cs)
    ensures NewlineFree(PyItems(cs))
    decreases |cs|
  {
    if |cs| > 1 {
      NewlineFreeItems(cs[1..]);
      NewlineFreeConcat(ItemSep, PyItems(cs[1..]));
      NewlineFreeConcat(Quoted(cs[0]), ItemSep + PyItems(cs[1..]));
    }
  }

  /** The script written for well-formed questions reads back as exactly
      their assignments, in order: the grading routine sees the parsed correct lists. */
  lemma ScriptRoundTrip(qs: seq<Question>)
    requires forall i :: 0 <= i < |qs| ==> WellFormed(qs[i])
    ensures ReadScript(ScoreScript(qs)) == Some(Assignments(qs))
  {
    var assigns := Assignments(qs);
    var ls := [ScriptHead] + KeyLines(assigns);
    forall i | 0 <= i < |assigns|
      ensures QuoteFree(assigns[i].key) && NewlineFree(assigns[i].key) && NewlineFree(assigns[i].labels)
    {
      Render.KeyShape(qs[i].number);
    }
    forall i | 0 <= i < |ls|
      ensures NewlineFree(ls[i])
    {
      if i > 0 {
        NewlineFreeKeyLine(assigns[i - 1]);
      }
    }
    LinesUnlines(ls);
    assert ls[1..] == KeyLines(assigns);
    ReadAssignmentsLines(assigns);
  }
}

=== FILE: splitter.dfy ===
/** The block splitter: the stripped question bank is cut at every line feed
    that is immediately followed by a question header, written in the
    source as a split on `\n(?=\d+\.\s)`. The line feed is consumed; the
    header stays at the start of the block after it. */
module Splitter {
  import opened Text

  /** `t` begins with one or more digits, a full stop, then whitespace
      (the look-ahead `\d+\.\s`). */
  predicate HeaderAhead(t: String) {
    var k := DigitRun(t, 0);
    1 <= k && k + 1 < |t| && t[k] == '.' && IsSpace(t[k + 1])
  }

  /** Position `j` of `s` is a cut: a line feed followed by a header. */
  predicate CutAt(s: String, j: int) {
    0 <= j < |s| && s[j] == '\n' && HeaderAhead(s[j + 1..])
  }

  /** The first cut at or after `i`. */
  function FirstCut(s: String, i: nat): (r: Option<nat>)
    requires i <= |s|
    ensures r.Some? ==> i <= r.value < |s| && CutAt(s, r.value)
    ensures r.Some? ==> forall j :: i <= j < r.value ==> !CutAt(s, j)
    ensures r.None? ==> forall j :: i <= j < |s| ==> !CutAt(s, j)
    decreases |s| - i
  {
    if i == |s| then None else if CutAt(s, i) then Some(i) else FirstCut(s, i + 1)
  }

  /** The blocks of `s`: joined with line feeds they give `s` back; each
      separator is a cut (the text after it starts with a header); and no
      block contains a cut of the text that follows it. */
  function Split(s: String): (blocks: seq<String>)
    ensures |blocks| >= 1
    ensures JoinLines(blocks) == s
    ensures forall k :: 1 <= k < |blocks| ==> HeaderAhead(JoinLines(blocks[k..]))
    ensures forall k, m :: 0 <= k < |blocks| && 0 <= m < |blocks[k]| ==> !CutAt(JoinLines(blocks[k..]), m)
    decreases |s|
  {
    match FirstCut(s, 0)
    case None =>
      [s]
    case Some(j) =>
      var rest := Split(s[j + 1..]);
      var blocks := [s[..j]] + rest;
      assert blocks[1..] == rest;
      assert JoinLines(blocks) == s[..j] + "\n" + JoinLines(rest);
      assert JoinLines(blocks) == s;
      assert forall k :: 1 <= k < |blocks| ==> blocks[k..] == rest[k - 1..];
      blocks
  }

  /** Split is the only decomposition with those three properties: any
      sequence of blocks that joins to `s`, whose separators are cuts and
      whose blocks hold no cut, is `Split(s)`. */
  lemma {:induction false} SplitUnique(s: String, blocks: seq<String>)
    requires |blocks| >= 1
    requires JoinLines(blocks) == s
    requires forall k :: 1 <= k < |blocks| ==> HeaderAhead(JoinLines(blocks[k..]))
    requires forall k, m :: 0 <= k < |blocks| && 0 <= m < |blocks[k]| ==> !CutAt(JoinLines(blocks[k..]), m)
    ensures blocks == Split(s)
    decreases |blocks|, 1
  {
    if |blocks| == 1 {
      assert blocks[0..] == blocks;
      assert s == blocks[0];
      SplitSingle(s);
    } else {
      SplitUniqueCons(s, blocks);
    }
  }

  /** The first block of a longer decomposition is the first piece of the
      split, and the rest is the split of what follows it. */
  lemma {:induction false} SplitUniqueCons(s: String, blocks: seq<String>)
    requires |blocks| >= 2
    requires JoinLines(blocks) == s
    requires forall k :: 1 <= k < |blocks| ==> HeaderAhead(JoinLines(blocks[k..]))
    requires forall k, m :: 0 <= k < |blocks| && 0 <= m < |blocks[k]| ==> !CutAt(JoinLines(blocks[k..]), m)
    ensures blocks == Split(s)
    decreases |blocks|, 0
  {
    var rest := blocks[1..];
    DropFirstBlock(blocks);
    SplitUnique(JoinLines(rest), rest);
    SplitCons(s, blocks[0], JoinLines(rest));
    assert blocks == [blocks[0]] + rest;
  }

  /** A text without a cut is one block. */
  lemma SplitSingle(s: String)
    requires forall m :: 0 <= m < |s| ==> !CutAt(s, m)
    ensures Split(s) == [s]
  {
    assert FirstCut(s, 0).None?;
  }

  /** The blocks after the first keep the decomposition's properties. */
  lemma DropFirstBlock(blocks: seq<String>)
    requires |blocks| >= 2
    requires forall k :: 1 <= k < |blocks| ==> HeaderAhead(JoinLines(blocks[k..]))
    requires forall k, m :: 0 <= k < |blocks| && 0 <= m < |blocks[k]| ==> !CutAt(JoinLines(blocks[k..]), m)
    ensures JoinLines(blocks) == blocks[0] + "\n" + JoinLines(blocks[1..])
    ensures HeaderAhead(JoinLines(blocks[1..]))
    ensures forall m :: 0 <= m < |blocks[0]| ==> !CutAt(JoinLines(blocks), m)
    ensures var rest := blocks[1..];
            && (forall k :: 1 <= k < |rest| ==> HeaderAhead(JoinLines(rest[k..])))
            && (forall k, m :: 0 <= k < |rest| && 0 <= m < |rest[k]| ==> !CutAt(JoinLines(rest[k..]), m))
  {
    var rest := blocks[1..];
    assert blocks[0..] == blocks;
    forall k | 1 <= k < |rest|
      ensures HeaderAhead(JoinLines(rest[k..]))
    {
      assert rest[k..] == blocks[k + 1..];
    }
    forall k, m | 0 <= k < |rest| && 0 <= m < |rest[k]|
      ensures !CutAt(JoinLines(rest[k..]), m)
    {
      assert rest[k..] == blocks[k + 1..];
      assert rest[k] == blocks[k + 1];
    }
  }

  /** A first block that holds no cut and is followed by a cut splits off. */
  lemma SplitCons(s: String, b: String, t: String)
    requires s == b + "\n" + t
    requires HeaderAhead(t)
    requires forall m :: 0 <= m < |b| ==> !CutAt(s, m)
    ensures Split(s) == [b] + Split(t)
  {
    assert s[|b| + 1..] == t;
    assert CutAt(s, |b|);
    assert FirstCut(s, 0) == Some(|b|);
    assert s[..|b|] == b;
  }

  /** A block after the first begins with digits and a full stop; the
      whitespace that completed its header is either inside the block or is
      the line feed that separates it from the next block, in which case the
      block is exactly `<digits>.`. */
  lemma BlockAfterCut(blocks: seq<String>, k: nat)
    requires 1 <= k < |blocks|
    requires HeaderAhead(JoinLines(blocks[k..]))
    ensures var n := DigitRun(blocks[k], 0);
            && 1 <= n < |blocks[k]| && blocks[k][n] == '.'
            && (HeaderAhead(blocks[k]) || (|blocks[k]| == n + 1 && k + 1 < |blocks|))
  {
    var b := blocks[k];
    var t := JoinLines(blocks[k..]);
    var tail := blocks[k + 1..];
    assert blocks[k..][1..] == tail;
    if |tail| == 0 {
      assert t == b;
    } else {
      assert t == b + "\n" + JoinLines(tail);
    }
    var n := DigitRun(t, 0);
    assert forall j :: 0 <= j < |b| ==> b[j] == t[j];
    if |b| < |t| {
      DigitRunBound(t, |b|);
    }
    DigitRunTo(b, n, 0);
  }
}

=== FILE: text.dfy ===
/** Characters, runs, trimming and line handling shared by the parser,
    the renderer and the grading routine. Strings are sequences of characters. */
module Text {

  type String = seq<char>

  datatype Option<+T> = None | Some(value: T)

  /** Whitespace as Python's `str.strip()` and the regex class `\s` see it,
      restricted to ASCII: tab, line feed, vertical tab, form feed,
      carriage return, the four separators 0x1C-0x1F, and space. */
  predicate IsSpace(c: char) {
    (9 <= c as int <= 13) || (28 <= c as int <= 32)
  }

  /** The regex class `\d`, restricted to ASCII. */
  predicate IsDigit(c: char) {
    '0' <= c <= '9'
  }

  /** The option alphabet `[A-E]`. */
  predicate IsLabel(c: char) {
    'A' <= c <= 'E'
  }

  predicate AllDigits(s: String) {
    forall j :: 0 <= j < |s| ==> IsDigit(s[j])
  }

  predicate AllLabels(s: String) {
    forall j :: 0 <= j < |s| ==> IsLabel(s[j])
  }

  predicate NewlineFree(s: String) {
    forall j :: 0 <= j < |s| ==> s[j] != '\n'
  }

  /** Length of the longest run of digits starting at `i`. */
  function DigitRun(s: String, i: nat): (n: nat)
    requires i <= |s|
    ensures i + n <= |s|
    ensures forall j :: i <= j < i + n ==> IsDigit(s[j])
    ensures i + n == |s| || !IsDigit(s[i + n])
    decreases |s| - i
  {
    if i < |s| && IsDigit(s[i]) then 1 + DigitRun(s, i + 1) else 0
  }

  /** A run of digits from `i` that stops at a non-digit is exactly what
      `DigitRun` measures from `i`. */
  lemma {:induction false} DigitRunTo(s: String, n: nat, i: nat)
    requires i <= n < |s| && (forall j :: i <= j < n ==> IsDigit(s[j])) && !IsDigit(s[n])
    ensures DigitRun(s, i) == n - i
    decreases n - i
  {
    if i < n {
      DigitRunTo(s, n, i + 1);
    }
  }

  /** A digit run from the start ends at or before any non-digit. */
  lemma DigitRunBound(s: String, p: nat)
    requires p < |s| && !IsDigit(s[p])
    ensures DigitRun(s, 0) <= p
  {
  }

  /** Length of the longest run of whitespace starting at `i`. */
  function SpaceRun(s: String, i: nat): (n: nat)
    requires i <= |s|
    ensures i + n <= |s|
    ensures forall j :: i <= j < i + n ==> IsSpace(s[j])
    ensures i + n == |s| || !IsSpace(s[i + n])
    decreases |s| - i
  {
    if i < |s| && IsSpace(s[i]) then 1 + SpaceRun(s, i + 1) else 0
  }

  /** Index of the first `c` at or after `i`, or `|s|` when there is none.
      With `c` a line feed this is the end of what the regex `.` (any
      character but a newline) can cover. */
  function NextOf(s: String, i: nat, c: char): (e: nat)
    requires i <= |s|
    ensures i <= e <= |s|
    ensures forall j :: i <= j < e ==> s[j] != c
    ensures e == |s| || s[e] == c
    decreases |s| - i
  {
    if i == |s| || s[i] == c then i else NextOf(s, i + 1, c)
  }

  /** Python's `str.lstrip()`: drop the leading whitespace run. */
  function TrimLeft(s: String): (r: String)
    ensures |r| <= |s| && r == s[|s| - |r|..]
    ensures forall j :: 0 <= j < |s| - |r| ==> IsSpace(s[j])
    ensures |r| == 0 || !IsSpace(r[0])
  {
    s[SpaceRun(s, 0)..]
  }

  /** Start of the whitespace run that ends at `e`. */
  function TrailStart(s: String, e: nat): (b: nat)
    requires e <= |s|
    ensures b <= e
    ensures forall j :: b <= j < e ==> IsSpace(s[j])
    ensures b == 0 || !IsSpace(s[b - 1])
  {
    if e > 0 && IsSpace(s[e - 1]) then TrailStart(s, e - 1) else e
  }

  /** Python's `str.rstrip()`: drop the trailing whitespace run. */
  function TrimRight(s: String): (r: String)
    ensures |r| <= |s| && r == s[..|r|]
    ensures forall j :: |r| <= j < |s| ==> IsSpace(s[j])
    ensures |r| == 0 || !IsSpace(r[|r| - 1])
  {
    s[..TrailStart(s, |s|)]
  }

  /** Python's `str.strip()`. */
  function Strip(s: String): String {
    TrimRight(TrimLeft(s))
  }

  /** Stripping removes exactly the leading and trailing whitespace: the
      result is a slice of the input with no whitespace at either end, and
      everything cut away is whitespace. */
  lemma StripSpec(s: String)
    ensures var a := |s| - |TrimLeft(s)|;
              && a + |Strip(s)| <= |s| && Strip(s) == s[a..a + |Strip(s)|]
              && (forall j :: 0 <= j < a ==> IsSpace(s[j]))
              && (forall j :: a + |Strip(s)| <= j < |s| ==> IsSpace(s[j]))
    ensures |Strip(s)| == 0 || (!IsSpace(Strip(s)[0]) && !IsSpace(Strip(s)[|Strip(s)| - 1]))
  {
    var l := TrimLeft(s);
    var r := TrimRight(l);
    assert Strip(s) == r;
    TrimParts(s, l, r);
  }

  /** Stripping leaves a text that neither opens nor closes with whitespace unchanged. */
  lemma StripUnchanged(s: String)
    requires |s| == 0 || (!IsSpace(s[0]) && !IsSpace(s[|s| - 1]))
    ensures Strip(s) == s
  {
    if |s| > 0 {
      NoLeadingSpace(s);
      NoTrailingSpace(s);
    }
  }

  lemma NoLeadingSpace(s: String)
    requires |s| > 0 && !IsSpace(s[0])
    ensures TrimLeft(s) == s
  {
    assert SpaceRun(s, 0) == 0;
    assert s[0..] == s;
  }

  lemma NoTrailingSpace(s: String)
    requires |s| > 0 && !IsSpace(s[|s| - 1])
    ensures TrimRight(s) == s
  {
    assert TrailStart(s, |s|) == |s|;
    assert s[..|s|] == s;
  }

  /** The facts behind StripSpec, for any left and right trim results. */
  lemma TrimParts(s: String, l: String, r: String)
    requires |l| <= |s| && l == s[|s| - |l|..]
    requires forall j :: 0 <= j < |s| - |l| ==> IsSpace(s[j])
    requires |l| == 0 || !IsSpace(l[0])
    requires |r| <= |l| && r == l[..|r|]
    requires forall j :: |r| <= j < |l| ==> IsSpace(l[j])
    requires |r| == 0 || !IsSpace(r[|r| - 1])
    ensures var a := |s| - |l|;
            && a + |r| <= |s| && r == s[a..a + |r|]
            && (forall j :: 0 <= j < a ==> IsSpace(s[j]))
            && (forall j :: a + |r| <= j < |s| ==> IsSpace(s[j]))
    ensures |r| == 0 || (!IsSpace(r[0]) && !IsSpace(r[|r| - 1]))
  {
    var a := |s| - |l|;
    PrefixOfSuffix(s, a, l, r);
    SpacesOfSuffix(s, a, |r|);
    if |r| > 0 {
      assert r[0] == l[0];
    }
  }

  /** A prefix of a suffix is a slice. */
  lemma PrefixOfSuffix(s: String, a: nat, l: String, r: String)
    requires a <= |s| && l == s[a..]
    requires |r| <= |l| && r == l[..|r|]
    ensures a + |r| <= |s| && r == s[a..a + |r|]
  {
    assert s[a..][..|r|] == s[a..a + |r|];
  }

  lemma SpacesOfSuffix(s: String, a: nat, n: nat)
    requires a + n <= |s|
    requires forall j :: n <= j < |s[a..]| ==> IsSpace(s[a..][j])
    ensures forall j :: a + n <= j < |s| ==> IsSpace(s[j])
  {
    forall j | a + n <= j < |s|
      ensures IsSpace(s[j])
    {
      assert s[j] == s[a..][j - a];
    }
  }

  /** Stripping twice is stripping once. */
  lemma StripIdempotent(s: String)
    ensures Strip(Strip(s)) == Strip(s)
  {
    StripSpec(s);
    var r := Strip(s);
    assert TrimLeft(r) == r;
    assert TrimRight(r) == r;
  }

  /** The pieces joined with a line feed between neighbours (Python's `"\n".join`). */
  function JoinLines(ls: seq<String>): String {
    if |ls| == 0 then ""
    else if |ls| == 1 then ls[0]
    else ls[0] + "\n" + JoinLines(ls[1..])
  }

  /** Each line followed by a line feed. */
  function Unlines(ls: seq<String>): String {
    if |ls| == 0 then "" else ls[0] + "\n" + Unlines(ls[1..])
  }

  /** The lines of a text: split at every line feed, a final line feed
      closing the last line rather than opening an empty one. */
  function Lines(s: String): seq<String>
    decreases |s|
  {
    if |s| == 0 then []
    else
      var e := NextOf(s, 0, '\n');
      if e == |s| then [s] else [s[..e]] + Lines(s[e + 1..])
  }

  lemma {:induction false} UnlinesAppend(a: seq<String>, b: seq<String>)
    ensures Unlines(a + b) == Unlines(a) + Unlines(b)
    decreases |a|
  {
    if |a| > 0 {
      assert (a + b)[1..] == a[1..] + b;
      UnlinesAppend(a[1..], b);
    } else {
      assert a + b == b;
    }
  }

  /** Reading the lines back from newline-terminated, newline-free lines
      gives exactly those lines. */
  lemma {:induction false} LinesUnlines(ls: seq<String>)
    requires forall i :: 0 <= i < |ls| ==> NewlineFree(ls[i])
    ensures Lines(Unlines(ls)) == ls
    decreases |ls|
  {
    if |ls| > 0 {
      var s := Unlines(ls);
      var l := ls[0];
      assert s == l + "\n" + Unlines(ls[1..]);
      LineEndAt(s, l);
      assert s[..|l|] == l;
      assert s[|l| + 1..] == Unlines(ls[1..]);
      LinesUnlines(ls[1..]);
    }
  }

  /** The first line feed of `l + "\n" + rest` is the one after `l` when `l` has none. */
  lemma LineEndAt(s: String, l: String)
    requires NewlineFree(l) && |l| < |s| && s[..|l|] == l && s[|l|] == '\n'
    ensures NextOf(s, 0, '\n') == |l|
  {
  }

  /** `s` holds no single quote. */
  predicate QuoteFree(s: String) {
    forall j :: 0 <= j < |s| ==> s[j] != '\''
  }

  /** `w` is a prefix of `s`. */
  predicate StartsWith(s: String, w: String) {
    |w| <= |s| && s[..|w|] == w
  }

  /** A quoted field: everything up to the next single quote, and what follows. */
  function TakeField(s: String): (String, String) {
    var e := NextOf(s, 0, '\'');
    (s[..e], s[e..])
  }

  /** Dropping a prefix that was written in front gives back what followed it. */
  lemma DropPrefix(w: String, rest: String)
    ensures StartsWith(w + rest, w) && (w + rest)[|w|..] == rest
  {
    assert (w + rest)[..|w|] == w;
  }

  /** A quote-free field is read up to the quote that follows it. */
  lemma TakeQuoteFree(field: String, rest: String)
    requires QuoteFree(field) && |rest| >= 1 && rest[0] == '\''
    ensures TakeField(field + rest) == (field, rest)
  {
    var s := field + rest;
    assert s[|field|] == rest[0];
    assert forall j :: 0 <= j < |field| ==> s[j] == field[j];
    assert NextOf(s, 0, '\'') == |field|;
    assert s[..|field|] == field;
    assert s[|field|..] == rest;
  }

  /** Two line-feed-free texts joined hold no line feed. */
  lemma NewlineFreeConcat(a: String, b: String)
    requires NewlineFree(a) && NewlineFree(b)
    ensures NewlineFree(a + b)
  {
    assert forall j :: 0 <= j < |a + b| ==> (a + b)[j] == if j < |a| then a[j] else b[j - |a|];
  }
}
